=== FILE: README.md ===
# Mesh clustering and OBJ naming for WFC modules

A Dafny model of the two pure cores of the WFC asset scripts. All proofs are checked by the Dafny verifier.

- **Proximity clustering** (`scripts/cluster_glb_to_modules.py`).
  - Meshes, given by their centroids, are joined when their centroids are at most `eps` apart.
  - The connected components of that graph are the clusters. Each cluster is in ascending order, and the clusters are ordered by their least member.
  - A threshold search picks `eps` for a target number of clusters:
    - it first tries `lo`;
    - it then doubles `hi` at most ten times while there are too many clusters;
    - it then bisects for `steps` rounds, keeping the first eps whose cluster count is closest to the target.
  - The command aims for the number of expected module names, orders those names by their integer suffix, and uses them only when there is exactly one per cluster. Otherwise a cluster is named `wfc_module_<idx>`.
- **OBJ file names** (`scripts/convert_glb_to_obj.py`).
  - `sanitize_name` replaces every maximal run of characters outside `[A-Za-z0-9_-]` by one `_`, strips surrounding underscores, and falls back to `mesh`.
  - A node's file stem is the leftmost case-insensitive module tag `wfc_module_<digits>` in `node + " " + geom`. When there is no tag, it is the sanitised node name, or the geometry name when the node has none.

Modules:

- `Centroids`: points and the inclusive distance test.
- `Components`: walks, connectivity, and a label-merging method for connected components.
- `Grouping`: from component labels to the ordered list of clusters.
- `Clustering`: the edge loop, `cluster_meshes`, and the partition properties.
- `ThresholdSearch`: `pick_eps_for_target`.
- `StableSort` and `ExpectedNames`: the key sort of the expected names, and export naming.
- `Pipeline`: the decisions of `main`.
- `ObjNames`: sanitising and stem selection.
- `Options`: an optional value.
- `Chars`: the decimal-digit test both scripts use.

Modelling choices:

- **Distances.** They are exact reals. The test `norm(a - b) <= eps` is stated as `eps >= 0 && |a - b|^2 <= eps^2`, which agrees with it for every `eps`.
- **Connected components.** The graph library's connected components are replaced by a method that merges labels edge by edge. It is proved to label every node with the least node linked to it (`Components.Root`). Grouping by that label gives exactly the clusters of `cluster_meshes`, in its order.
- **Missing names.** A missing name (Python `None`) is the empty string; both are false in `node_name or geom_name`.

## Model

| member | source | states |
|---|---|---|
| Centroids.SqDist | scripts/cluster_glb_to_modules.py:55 | the squared distance between two centroids is never negative |
| Centroids.Near | scripts/cluster_glb_to_modules.py:55 | a negative eps links nothing, and a centroid is within every non-negative eps of itself |
| Centroids.NearMonotone | scripts/cluster_glb_to_modules.py:55 | a pair within e1 is within every larger e2, so a larger eps only adds edges |
| Centroids.NearZeroIffSamePoint | scripts/cluster_glb_to_modules.py:55 | at eps = 0 two centroids are linked exactly when they coincide |
| Components.LinkedSymmetric | scripts/cluster_glb_to_modules.py:51-57 | connectivity in the undirected graph is symmetric |
| Components.LinkedTransitive | scripts/cluster_glb_to_modules.py:51-57 | connectivity is transitive |
| Components.LinkedMonotone | scripts/cluster_glb_to_modules.py:53-57 | adding edges keeps every connection |
| Components.LinkedWithoutEdges | scripts/cluster_glb_to_modules.py:52-57 | without edges a node is linked only to itself |
| Components.SameRootIffLinked | scripts/cluster_glb_to_modules.py:57 | two nodes have the same least linked node exactly when they are linked |
| Components.RootOfRoot | scripts/cluster_glb_to_modules.py:57 | the least node of a component is its own least node |
| Components.LabelsAgreeWhenLinked | scripts/cluster_glb_to_modules.py:57 | a labelling that agrees across every edge agrees across every walk |
| Components.MergeStep | scripts/cluster_glb_to_modules.py:57 | merging the labels of an edge's ends keeps every label the least node linked to it by the edges merged so far |
| Components.CanonicalLabelsAreRoots | scripts/cluster_glb_to_modules.py:57 | once every edge is merged, each label is the least node of its component |
| Components.ConnectedComponents | scripts/cluster_glb_to_modules.py:57 | the method labels every node 0..n-1 with the least node of its connected component |
| Grouping.Members | scripts/cluster_glb_to_modules.py:58 | the members of a label are exactly the nodes carrying it, strictly ascending |
| Grouping.GroupsFromOrdered | scripts/cluster_glb_to_modules.py:59 | groups come in strictly ascending order of their first element |
| Grouping.GroupsFromHasGroupOf | scripts/cluster_glb_to_modules.py:57-58 | every self-labelled node leads a group |
| Grouping.GroupByLabelIsSortedPartition | scripts/cluster_glb_to_modules.py:57-59 | the groups of a canonical labelling are non-empty, disjoint and strictly ascending, cover 0..n-1, are ordered by first element, and each is one label class |
| Grouping.SameClusterIffSameLabel | scripts/cluster_glb_to_modules.py:57-58 | two nodes share a group exactly when they share a label |
| Grouping.FewerGroups | scripts/cluster_glb_to_modules.py:57-59 | a labelling with fewer self-labelled nodes has no more groups |
| Grouping.SelfLabelsGiveSingletons | scripts/cluster_glb_to_modules.py:57-59 | when every node labels itself the groups are [k], [k+1], ..., [n-1] |
| Clustering.ProximityEdges | scripts/cluster_glb_to_modules.py:53-56 | the nested loop over i < j collects exactly the pairs whose centroids are within eps |
| Clustering.NearPairs | scripts/cluster_glb_to_modules.py:53-56 | every edge (i, j) has i < j < N and centroids within eps |
| Clustering.RootLabels | scripts/cluster_glb_to_modules.py:57 | labelling each mesh by the least mesh linked to it is canonical |
| Clustering.Clusters | scripts/cluster_glb_to_modules.py:47-60 | there are at most N clusters, and at least one when there is a mesh |
| Clustering.ClusterMeshes | scripts/cluster_glb_to_modules.py:47-60 | the method returns the clusters at eps, and an empty list for no meshes |
| Clustering.ClustersAreSortedPartition | scripts/cluster_glb_to_modules.py:51-59 | the clusters partition 0..N-1 into non-empty, strictly ascending lists ordered by first element |
| Clustering.SameClusterIffLinked | scripts/cluster_glb_to_modules.py:53-58 | two meshes share a cluster exactly when a chain of near pairs joins them |
| Clustering.NearMeshesShareCluster | scripts/cluster_glb_to_modules.py:55-57 | two meshes at distance at most eps share a cluster (the boundary is inclusive) |
| Clustering.SeparateClustersAreFar | scripts/cluster_glb_to_modules.py:55-57 | meshes in different clusters are more than eps apart |
| Clustering.ClusterCountMonotone | scripts/cluster_glb_to_modules.py:55-57 | raising eps never increases the number of clusters |
| Clustering.ZeroEpsGivesSingletons | scripts/cluster_glb_to_modules.py:55-59 | at eps = 0 with distinct centroids the clusters are [[0], [1], ..., [N-1]] |
| ThresholdSearch.Doubled | scripts/cluster_glb_to_modules.py:71 | doubling a non-negative hi never lowers it |
| ThresholdSearch.Halved | scripts/cluster_glb_to_modules.py:74-86 | halving a non-negative width keeps it between 0 and the width |
| ThresholdSearch.ExpandSteps | scripts/cluster_glb_to_modules.py:67-73 | hi is doubled at most 10 times, every doubling was taken with too many clusters, and an early stop means at most target clusters |
| ThresholdSearch.ExpandUpperBound | scripts/cluster_glb_to_modules.py:67-73 | the while loop returns hi doubled as often as that rule says |
| ThresholdSearch.Bisection | scripts/cluster_glb_to_modules.py:74-86 | bisection evaluates exactly steps midpoints |
| ThresholdSearch.BisectionStaysInside | scripts/cluster_glb_to_modules.py:74-86 | left <= left' <= right' <= right throughout, and every midpoint lies in the initial bracket |
| ThresholdSearch.BisectionHalves | scripts/cluster_glb_to_modules.py:74-86 | after k rounds the bracket is the initial one halved k times |
| ThresholdSearch.BisectionKeepsBracket | scripts/cluster_glb_to_modules.py:83-86 | a moved left end has more than target clusters and a moved right end at most target |
| ThresholdSearch.ThresholdWithinBracket | scripts/cluster_glb_to_modules.py:83-86 | since the count never grows with eps, a moved left end bounds every eps with too many clusters, and a moved right end every eps with at most target |
| ThresholdSearch.FirstBestExtend | scripts/cluster_glb_to_modules.py:78-82 | the best trial is replaced only on a strictly smaller gap |
| ThresholdSearch.FirstBestUnique | scripts/cluster_glb_to_modules.py:79-82 | on ties the first best trial wins, so the choice is unique |
| ThresholdSearch.FirstBestNoWorseThanLo | scripts/cluster_glb_to_modules.py:64-82 | the chosen eps is never further from the target than lo |
| ThresholdSearch.TrialsInsideSearchRange | scripts/cluster_glb_to_modules.py:64-86 | with 0 <= lo <= hi there are steps + 1 trials, all within [lo, cur_hi], and hi <= cur_hi |
| ThresholdSearch.BisectionSoFarStep | scripts/cluster_glb_to_modules.py:75-86 | one loop round extends the midpoints and moves the bracket as the bisection does |
| ThresholdSearch.SearchStep | scripts/cluster_glb_to_modules.py:75-86 | one loop round keeps the best-so-far equal to the first best of the trials so far |
| ThresholdSearch.SearchDone | scripts/cluster_glb_to_modules.py:87 | after steps rounds the best-so-far is the first best of all trials |
| ThresholdSearch.PickEpsForTarget | scripts/cluster_glb_to_modules.py:63-87 | returns the first trial (lo, then the midpoints) closest to the target, and the clusters at that eps |
| StableSort.InsertSorted | scripts/cluster_glb_to_modules.py:99 | inserting into a key-sorted list keeps it sorted |
| StableSort.InsertPermutes | scripts/cluster_glb_to_modules.py:99 | inserting adds exactly the new element |
| StableSort.InsertWithKey | scripts/cluster_glb_to_modules.py:99 | an inserted element goes after all elements with its key |
| StableSort.SortBySorted | scripts/cluster_glb_to_modules.py:99 | the sort orders by key |
| StableSort.SortByPermutes | scripts/cluster_glb_to_modules.py:99 | the sort keeps every element as often as before |
| StableSort.SortByStable | scripts/cluster_glb_to_modules.py:99 | elements with equal keys keep their relative order |
| ExpectedNames.LastSegment | scripts/cluster_glb_to_modules.py:96 | the text after the last '_' is the longest underscore-free suffix |
| ExpectedNames.TrimStart | scripts/cluster_glb_to_modules.py:96 | leading space, tab, LF, VT, FF and CR are removed and no character is invented |
| ExpectedNames.TrimEnd | scripts/cluster_glb_to_modules.py:96 | trailing space, tab, LF, VT, FF and CR are removed and no character is invented |
| ExpectedNames.Decimal | scripts/cluster_glb_to_modules.py:110 | the decimal notation of n is non-empty digits without leading zero whose value is n |
| ExpectedNames.ParseInt | scripts/cluster_glb_to_modules.py:96 | a non-empty string of digits parses to its decimal value |
| ExpectedNames.ParseShow | scripts/cluster_glb_to_modules.py:96 | int() reads back any integer's notation surrounded by any mix of space, tab, LF, VT, FF and CR |
| ExpectedNames.ParseIntNeedsDigit | scripts/cluster_glb_to_modules.py:95-98 | text without a digit does not parse |
| ExpectedNames.ParseIntRejectsOther | scripts/cluster_glb_to_modules.py:95-98 | text holding a character that is not a digit, whitespace or a sign does not parse, so "3b" and "1.5" are rejected |
| ExpectedNames.ParseIntAccepts | scripts/cluster_glb_to_modules.py:95-98 | whatever parses is an optional sign and a non-empty digit run, with only space, tab, LF, VT, FF or CR around it, and its value is the run's value with the sign applied; so "1 2", "1-2", "5+" and "+-3" are rejected |
| ExpectedNames.SeparatorPaddedSuffixFallsBack | scripts/cluster_glb_to_modules.py:95-98 | `wfc_module_\x1c5` gets the key 1000000, because `int()` does not skip the 0x1C separator |
| ExpectedNames.SuffixKeyOfNumber | scripts/cluster_glb_to_modules.py:94-98 | `SuffixKey`: a name ending in '_' and an integer, with space, tab, LF, VT, FF or CR allowed around it, has that integer as its key |
| ExpectedNames.OtherCharGetsFallbackKey | scripts/cluster_glb_to_modules.py:94-98 | `SuffixKey`: a last segment holding a character other than a digit, whitespace or a sign gets the key 1000000 |
| ExpectedNames.NoDigitGetsFallbackKey | scripts/cluster_glb_to_modules.py:94-98 | a name whose last segment has no digit gets the key 1000000 |
| ExpectedNames.FallbackNameKey | scripts/cluster_glb_to_modules.py:94-110 | the name wfc_module_idx sorts by idx |
| ExpectedNames.FallbackNamesDistinct | scripts/cluster_glb_to_modules.py:110 | different clusters get different fallback names |
| ExpectedNames.OrderExpected | scripts/cluster_glb_to_modules.py:99 | the ordered names are sorted by suffix key and are a permutation of the listing |
| ExpectedNames.OrderExpectedIsStableSort | scripts/cluster_glb_to_modules.py:94-99 | the expected names come out sorted by suffix key, as a permutation, with equal keys in listing order |
| ExpectedNames.ExportNaming | scripts/cluster_glb_to_modules.py:175-177 | for `NamesForExport`, `ExportBase` and `MismatchWarning` together: a cluster takes the expected name at its index exactly when the counts agree and wfc_module_idx otherwise, and the warning is given exactly when names exist but the counts differ |
| ExpectedNames.ExportBasesDistinct | scripts/cluster_glb_to_modules.py:110 | with distinct expected names no two clusters share a file name |
| Pipeline.ClusterForExport | scripts/cluster_glb_to_modules.py:164-177 | the expected names are the listing ordered by suffix key; a given eps is used as is; with no eps but a target (`EffectiveTarget`: the given one, else the number of expected names when there are some) the search over [0, 0.5] with 24 steps picks eps; otherwise eps is 0.05; the names and the warning follow the cluster count |
| ObjNames.SkipRunEmpty | scripts/convert_glb_to_obj.py:16 | a run is skipped entirely only if the text is all disallowed characters |
| ObjNames.Collapse | scripts/convert_glb_to_obj.py:16 | the substitution leaves only characters of [A-Za-z0-9_-] |
| ObjNames.CollapseKeepsNameChars | scripts/convert_glb_to_obj.py:16 | allowed characters pass through unchanged and in order |
| ObjNames.CollapseRun | scripts/convert_glb_to_obj.py:16 | a maximal run of disallowed characters becomes exactly one '_' |
| ObjNames.CollapseAppend | scripts/convert_glb_to_obj.py:16 | the substitution works piece by piece at every join that does not split a run |
| ObjNames.StripLeading | scripts/convert_glb_to_obj.py:16 | the result is a suffix of the input that does not start with '_', and everything dropped is '_' |
| ObjNames.StripTrailing | scripts/convert_glb_to_obj.py:16 | the result is a prefix of the input that does not end with '_', and everything dropped is '_' |
| ObjNames.Sanitize | scripts/convert_glb_to_obj.py:15-16 | the result is non-empty, of [A-Za-z0-9_-] only, and neither starts nor ends with '_' |
| ObjNames.SanitizeKeepsSanitized | scripts/convert_glb_to_obj.py:16 | an already sanitised name is returned unchanged |
| ObjNames.SanitizeIdempotent | scripts/convert_glb_to_obj.py:16 | sanitising twice is sanitising once |
| ObjNames.CollapseSeparators | scripts/convert_glb_to_obj.py:16 | disallowed characters and underscores collapse to underscores only |
| ObjNames.SanitizeSeparatorsOnly | scripts/convert_glb_to_obj.py:16 | a name of disallowed characters and underscores only becomes "mesh" |
| ObjNames.DigitRunEnd | scripts/convert_glb_to_obj.py:44 | \d+ is greedy: the run ends at the first non-digit |
| ObjNames.FindTag | scripts/convert_glb_to_obj.py:44 | the search returns the leftmost tag, and none when there is no tag |
| ObjNames.TagText | scripts/convert_glb_to_obj.py:46 | the match text starts with the fixed part as written and goes past it |
| ObjNames.TagTextShape | scripts/convert_glb_to_obj.py:44-46 | a match is the fixed part in some letter case followed by digits only, so it is a valid file name |
| ObjNames.Stem | scripts/convert_glb_to_obj.py:43-46 | the stem is non-empty, and either the sanitised name or longer than the fixed tag part |
| ObjNames.TagAtInNode | scripts/convert_glb_to_obj.py:44 | a tag starting in the node name is a tag of the joined text and vice versa |
| ObjNames.TagAtInGeom | scripts/convert_glb_to_obj.py:44 | a tag in the geometry name is a tag of the joined text, shifted |
| ObjNames.StemFromNodeTag | scripts/convert_glb_to_obj.py:43-46 | a tag in the node name is the stem |
| ObjNames.StemFromGeomTag | scripts/convert_glb_to_obj.py:43-46 | without a tag in the node name, the first tag of the geometry name is the stem |
| ObjNames.StemWithoutTag | scripts/convert_glb_to_obj.py:43-46 | without any tag the stem is sanitize_name(node_name or geom_name) |
| ObjNames.StemMatchesNameByName | scripts/convert_glb_to_obj.py:43-46 | the search over the joined text gives the same stem as a reference that searches the node name, then the geometry name, then falls back to the sanitised name |
| ObjNames.StemShape | scripts/convert_glb_to_obj.py:43-46 | every stem is non-empty, of [A-Za-z0-9_-] only, and either the sanitised name or a whole tag |

## Left out

- Loading the GLB scene, walking the scene graph, applying transforms, copying and concatenating meshes, and writing OBJ files (`load_world_meshes`, `export_clusters` apart from its naming, and `export_glb_nodes_to_obj` apart from its naming). These are library calls and file I/O. Centroids are inputs.
- The `try`/`except` blocks of the loaders. They are loader policy around the library calls.
- `parse_args` and both `main` functions' argument handling, existence checks, printing and exit codes, including the early exits when the GLB is missing or holds no meshes. The model takes the parsed `eps`, `target` and expected names as inputs; a `--target` left without a value gives the target -1, which the model accepts like any integer.
- The directory glob of `get_expected_names` and its lexicographic path sort. The model takes the stems in the order the listing gives and proves the key sort stable relative to that order.
- `mkdir` and the export loop's skip of empty clusters. Clusters are proved non-empty, so that skip never applies.
- Floating-point behaviour: the model uses exact reals for centroids, the distance, doubling and the midpoint, with no rounding, NaN or infinity.
- Python's `int()` on non-ASCII input. Only ASCII digits and the ASCII whitespace `int()` skips (space, tab, LF, VT, FF, CR) are modelled; Unicode digits and spaces are not.
- ParseInt: does not accept the '_' digit separators `int()` allows (`"1_0"`). Its only input, the last segment of a name, never contains '_', so keys are unaffected.
- The tag search's `\d` and case-insensitive matching on non-ASCII text. Only ASCII digits and ASCII letter case are modelled.
- The geometry-only fallback loop of the OBJ converter (`scripts/convert_glb_to_obj.py:51-59`). It names each file `sanitize_name(geom_name)`, which is `ObjNames.Sanitize`; the loop itself is I/O.
- The connected-components routine of the graph library is replaced by `Components.ConnectedComponents`. That method is proved to compute the same partition, but the library's internal visiting order is not modelled.

=== FILE: centroids.dfy ===
/** Mesh centroids and the inclusive distance test of the proximity graph.
    A centroid is taken as given (the mesh library computes it); distances are
    exact reals, and `norm(a - b) <= eps` is stated without a square root as
    `eps >= 0 && |a - b|^2 <= eps^2`, which is the same test for every eps. */
module Centroids {

  datatype Point = Point(x: real, y: real, z: real)

  function Sq(a: real): real { a * a }

  lemma SqPositive(a: real)
    requires a != 0.0
    ensures Sq(a) > 0.0
  {
    if a > 0.0 {
      calc { Sq(a); == a * a; > { assert a * a > 0.0; } 0.0; }
    } else {
      calc { Sq(a); == (-a) * (-a); > { assert (-a) * (-a) > 0.0; } 0.0; }
    }
  }

  lemma SqNonNegative(a: real)
    ensures Sq(a) >= 0.0
  {
    if a != 0.0 { SqPositive(a); }
  }

  lemma SqMonotone(e1: real, e2: real)
    requires 0.0 <= e1 <= e2
    ensures Sq(e1) <= Sq(e2)
  {
    calc {
      Sq(e1);
      == e1 * e1;
      <= { assert e1 * e1 <= e1 * e2; }
      e1 * e2;
      <= { assert e1 * e2 <= e2 * e2; }
      e2 * e2;
      == Sq(e2);
    }
  }

  /** Squared Euclidean distance between two centroids. */
  function SqDist(p: Point, q: Point): (d: real)
    ensures d >= 0.0
  {
    SqNonNegative(p.x - q.x); SqNonNegative(p.y - q.y); SqNonNegative(p.z - q.z);
    Sq(p.x - q.x) + Sq(p.y - q.y) + Sq(p.z - q.z)
  }

  /** The edge test: the distance between the two centroids is at most eps
      (inclusive). A negative eps links nothing, as a norm is never negative. */
  predicate Near(p: Point, q: Point, eps: real)
    ensures Near(p, q, eps) ==> 0.0 <= eps
    ensures p == q ==> (Near(p, q, eps) <==> 0.0 <= eps)
  {
    0.0 <= eps && SqDist(p, q) <= Sq(eps)
  }

  /** Raising the threshold only adds edges. */
  lemma NearMonotone(p: Point, q: Point, e1: real, e2: real)
    requires e1 <= e2
    requires Near(p, q, e1)
    ensures Near(p, q, e2)
  {
    SqMonotone(e1, e2);
  }

  /** With eps = 0 exactly the coinciding centroids are linked. */
  lemma NearZeroIffSamePoint(p: Point, q: Point)
    ensures Near(p, q, 0.0) <==> p == q
  {
    SqNonNegative(p.x - q.x); SqNonNegative(p.y - q.y); SqNonNegative(p.z - q.z);
    if p.x != q.x { SqPositive(p.x - q.x); }
    if p.y != q.y { SqPositive(p.y - q.y); }
    if p.z != q.z { SqPositive(p.z - q.z); }
  }
}

=== FILE: chars.dfy ===
/** Character classes shared by the two scripts' name handling. */
module Chars {
  /** An ASCII decimal digit. */
  predicate IsDigit(c: char)
  {
    '0' <= c <= '9'
  }
}

=== FILE: clustering.dfy ===
/** Proximity clustering of mesh centroids: every pair of meshes whose
    centroids are within eps is joined by an edge, and the clusters are the
    connected components of that graph, each sorted ascending and listed in
    ascending order of their least index. */
module Clustering {
  import opened Centroids
  import opened Components
  import opened Grouping

  /** The edge set of the proximity graph: the pairs i < j whose centroids are
      at distance at most eps. */
  function NearPairs(cents: seq<Point>, eps: real): (E: set<Edge>)
    ensures forall e :: e in E ==> e.0 < e.1 < |cents| && Near(cents[e.0], cents[e.1], eps)
    ensures EdgesWithin(E, |cents|)
  {
    set i: nat, j: nat | 0 <= i < j < |cents| && Near(cents[i], cents[j], eps) :: (i, j)
  }

  /** Builds the proximity graph's edges by testing every pair i < j. */
  method ProximityEdges(cents: seq<Point>, eps: real) returns (edges: set<Edge>)
    ensures edges == NearPairs(cents, eps)
  {
    var n := |cents|;
    edges := {};
    for i := 0 to n
      invariant forall e :: e in edges <==> e.0 < e.1 < n && e.0 < i && Near(cents[e.0], cents[e.1], eps)
    {
      for j := i + 1 to n
        invariant forall e :: e in edges <==>
          e.0 < e.1 < n && (e.0 < i || (e.0 == i && e.1 < j)) && Near(cents[e.0], cents[e.1], eps)
      {
        if Near(cents[i], cents[j], eps) {
          edges := edges + {(i, j)};
        }
      }
    }
    forall e | e in NearPairs(cents, eps)
      ensures e in edges
    {
    }
  }

  /** Every mesh labelled with the least index of its component. */
  ghost function RootLabels(cents: seq<Point>, eps: real): (comp: seq<nat>)
    ensures |comp| == |cents| && Canonical(comp)
  {
    var E := NearPairs(cents, eps);
    var comp := seq(|cents|, x requires 0 <= x < |cents| => Root(E, x));
    forall x | 0 <= x < |cents|
      ensures SelfLabelled(comp, comp[x])
    {
      RootOfRoot(E, x);
    }
    comp
  }

  /** The clusters for threshold eps. */
  ghost function Clusters(cents: seq<Point>, eps: real): (P: seq<seq<nat>>)
    ensures |P| <= |cents|
    ensures |cents| > 0 ==> |P| > 0
  {
    var comp := RootLabels(cents, eps);
    GroupsFromCount(comp, 0);
    if |cents| > 0 then
      GroupsFromHasGroupOf(comp, 0, 0);
      GroupByLabel(comp)
    else GroupByLabel(comp)
  }

  /** `cluster_meshes`: the components of the proximity graph. */
  method ClusterMeshes(cents: seq<Point>, eps: real) returns (clusters: seq<seq<nat>>)
    ensures clusters == Clusters(cents, eps)
    ensures |cents| == 0 ==> clusters == []
  {
    if |cents| == 0 {
      return [];
    }
    var edges := ProximityEdges(cents, eps);
    var comp := ConnectedComponents(|cents|, edges);
    assert comp == RootLabels(cents, eps);
    clusters := GroupByLabel(comp);
  }

  /** The clusters cover every mesh index exactly once, no cluster is empty,
      each is ascending and they are ordered by their first element. */
  lemma ClustersAreSortedPartition(cents: seq<Point>, eps: real)
    ensures IsPartition(Clusters(cents, eps), |cents|)
    ensures IsOrdered(Clusters(cents, eps))
  {
    GroupByLabelIsSortedPartition(RootLabels(cents, eps));
  }

  /** Two meshes share a cluster exactly when a chain of centroids, each
      within eps of the next, joins them. */
  lemma SameClusterIffLinked(cents: seq<Point>, eps: real, i: nat, j: nat)
    requires i < |cents| && j < |cents|
    ensures InSameCluster(Clusters(cents, eps), i, j) <==> Linked(NearPairs(cents, eps), i, j)
  {
    SameClusterIffSameLabel(RootLabels(cents, eps), i, j);
    SameRootIffLinked(NearPairs(cents, eps), i, j);
  }

  /** The boundary is inclusive: two meshes whose centroids are at distance
      at most eps, including exactly eps, share a cluster. */
  lemma NearMeshesShareCluster(cents: seq<Point>, eps: real, i: nat, j: nat)
    requires i < |cents| && j < |cents|
    requires Near(cents[i], cents[j], eps)
    ensures InSameCluster(Clusters(cents, eps), i, j)
  {
    var E := NearPairs(cents, eps);
    if i < j {
      assert (i, j) in E;
      LinkedByEdge(E, i, j);
    } else if j < i {
      assert (j, i) in E;
      LinkedByEdge(E, i, j);
    } else {
      LinkedReflexive(E, i);
    }
    SameClusterIffLinked(cents, eps, i, j);
  }

  /** Meshes in different clusters are farther apart than eps. */
  lemma SeparateClustersAreFar(cents: seq<Point>, eps: real, q1: nat, q2: nat, i: nat, j: nat)
    requires q1 < |Clusters(cents, eps)| && q2 < |Clusters(cents, eps)| && q1 != q2
    requires i in Clusters(cents, eps)[q1] && j in Clusters(cents, eps)[q2]
    ensures i < |cents| && j < |cents|
    ensures !Near(cents[i], cents[j], eps)
  {
    var P := Clusters(cents, eps);
    ClustersAreSortedPartition(cents, eps);
    assert i < |cents| && j < |cents|;
    if Near(cents[i], cents[j], eps) {
      NearMeshesShareCluster(cents, eps, i, j);
      assert false;
    }
  }

  /** Raising eps never raises the number of clusters. */
  lemma ClusterCountMonotone(cents: seq<Point>, e1: real, e2: real)
    requires e1 <= e2
    ensures |Clusters(cents, e2)| <= |Clusters(cents, e1)|
  {
    var fine, coarse := NearPairs(cents, e1), NearPairs(cents, e2);
    forall e | e in fine
      ensures e in coarse
    {
      NearMonotone(cents[e.0], cents[e.1], e1, e2);
    }
    var fineComp, coarseComp := RootLabels(cents, e1), RootLabels(cents, e2);
    forall r | 0 <= r < |cents| && coarseComp[r] == r
      ensures fineComp[r] == r
    {
      var f := Root(fine, r);
      LinkedMonotone(fine, coarse, f, r);
      assert Root(coarse, r) <= f;
    }
    FewerGroups(fineComp, coarseComp, 0);
  }

  /** With eps = 0 and pairwise distinct centroids every mesh is a cluster of
      its own: [[0], [1], ..., [N-1]]. */
  lemma ZeroEpsGivesSingletons(cents: seq<Point>)
    requires forall i, j :: 0 <= i < j < |cents| ==> cents[i] != cents[j]
    ensures Clusters(cents, 0.0) == Singletons(0, |cents|)
  {
    var E := NearPairs(cents, 0.0);
    forall e | e in E
      ensures false
    {
      NearZeroIffSamePoint(cents[e.0], cents[e.1]);
    }
    assert E == {};
    var comp := RootLabels(cents, 0.0);
    forall x | 0 <= x < |cents|
      ensures comp[x] == x
    {
      LinkedWithoutEdges(Root(E, x), x);
    }
    SelfLabelsGiveSingletons(comp, 0);
  }
}

=== FILE: components.dfy ===
/** Connected components of an undirected graph on the nodes 0..n-1.
    `cluster_meshes` hands its proximity graph to a graph library; here a component
    is defined directly: two nodes are linked when a walk along edges joins
    them, and every node is labelled with the least node of its component. */
module Components {

  /** An undirected edge, stored as the pair of its end nodes. */
  type Edge = (nat, nat)

  predicate Adjacent(E: set<Edge>, a: nat, b: nat)
  {
    (a, b) in E || (b, a) in E
  }

  /** Every edge joins two of the nodes 0..n-1. */
  predicate EdgesWithin(E: set<Edge>, n: nat)
  {
    forall e :: e in E ==> e.0 < n && e.1 < n
  }

  /** p is a walk from x to y: consecutive nodes are adjacent. */
  ghost predicate IsWalk(E: set<Edge>, p: seq<nat>, x: nat, y: nat)
  {
    && |p| > 0 && p[0] == x && p[|p| - 1] == y
    && forall k :: 0 <= k < |p| - 1 ==> Adjacent(E, p[k], p[k + 1])
  }

  /** x and y lie in the same connected component. */
  ghost predicate Linked(E: set<Edge>, x: nat, y: nat)
  {
    exists p :: IsWalk(E, p, x, y)
  }

  lemma LinkedReflexive(E: set<Edge>, x: nat)
    ensures Linked(E, x, x)
  {
    assert IsWalk(E, [x], x, x);
  }

  lemma LinkedByEdge(E: set<Edge>, x: nat, y: nat)
    requires Adjacent(E, x, y)
    ensures Linked(E, x, y)
  {
    assert IsWalk(E, [x, y], x, y);
  }

  lemma LinkedSymmetric(E: set<Edge>, x: nat, y: nat)
    requires Linked(E, x, y)
    ensures Linked(E, y, x)
  {
    var p :| IsWalk(E, p, x, y);
    var n := |p|;
    var q := seq(n, k requires 0 <= k < n => p[n - 1 - k]);
    forall k | 0 <= k < n - 1
      ensures Adjacent(E, q[k], q[k + 1])
    {
      assert Adjacent(E, p[n - 2 - k], p[n - 2 - k + 1]);
    }
    assert IsWalk(E, q, y, x);
  }

  lemma LinkedTransitive(E: set<Edge>, x: nat, y: nat, z: nat)
    requires Linked(E, x, y) && Linked(E, y, z)
    ensures Linked(E, x, z)
  {
    var p :| IsWalk(E, p, x, y);
    var q :| IsWalk(E, q, y, z);
    var r := p + q[1..];
    forall k | 0 <= k < |r| - 1
      ensures Adjacent(E, r[k], r[k + 1])
    {
      if k < |p| - 1 {
        assert r[k] == p[k] && r[k + 1] == p[k + 1];
      } else {
        var i := k - |p| + 1;
        assert r[k] == q[i] && r[k + 1] == q[i + 1];
      }
    }
    assert IsWalk(E, r, x, z);
  }

  /** Adding edges never separates linked nodes. */
  lemma LinkedMonotone(E1: set<Edge>, E2: set<Edge>, x: nat, y: nat)
    requires E1 <= E2 && Linked(E1, x, y)
    ensures Linked(E2, x, y)
  {
    var p :| IsWalk(E1, p, x, y);
    assert IsWalk(E2, p, x, y);
  }

  /** Without edges a node is linked to itself only. */
  lemma LinkedWithoutEdges(x: nat, y: nat)
    requires Linked({}, x, y)
    ensures x == y
  {
    var identity := seq(x + 1, i requires 0 <= i <= x => i);
    LabelsAgreeWhenLinked({}, identity, x, y);
  }

  /** The least node in [k, x] linked to x. */
  ghost function LeastLinked(E: set<Edge>, x: nat, k: nat): (r: nat)
    requires k <= x
    ensures k <= r <= x && Linked(E, r, x)
    ensures forall y :: k <= y < r ==> !Linked(E, y, x)
    decreases x - k
  {
    if Linked(E, k, x) then k
    else
      LinkedReflexive(E, x);
      LeastLinked(E, x, k + 1)
  }

  /** The root of x: the least node of x's component. */
  ghost function Root(E: set<Edge>, x: nat): (r: nat)
  {
    LeastLinked(E, x, 0)
  }

  /** Two nodes have the same root exactly when they are linked. */
  lemma SameRootIffLinked(E: set<Edge>, x: nat, y: nat)
    ensures Root(E, x) == Root(E, y) <==> Linked(E, x, y)
  {
    var rx, ry := Root(E, x), Root(E, y);
    if rx == ry {
      LinkedSymmetric(E, rx, x);
      LinkedTransitive(E, x, rx, y);
    }
    if Linked(E, x, y) {
      LinkedTransitive(E, rx, x, y);
      LinkedSymmetric(E, x, y);
      LinkedTransitive(E, ry, y, x);
    }
  }

  /** A root is its own root. */
  lemma RootOfRoot(E: set<Edge>, x: nat)
    ensures Root(E, Root(E, x)) == Root(E, x)
  {
    SameRootIffLinked(E, Root(E, x), x);
  }

  /** Labels in which every node points at a node no larger than itself that
      labels itself. */
  predicate Canonical(comp: seq<nat>)
  {
    forall x :: 0 <= x < |comp| ==> comp[x] <= x && SelfLabelled(comp, comp[x])
  }

  /** r is a node that carries its own label. */
  predicate SelfLabelled(comp: seq<nat>, r: nat)
  {
    r < |comp| && comp[r] == r
  }

  /** Every edge joins two nodes with the same label. */
  predicate Respects(E: set<Edge>, comp: seq<nat>)
  {
    forall e :: e in E ==> e.0 < |comp| && e.1 < |comp| && comp[e.0] == comp[e.1]
  }

  /** Labels that respect every edge are constant along every walk. */
  lemma {:induction false} LabelsAgreeAlongWalk(E: set<Edge>, comp: seq<nat>, p: seq<nat>, x: nat, y: nat)
    requires Respects(E, comp) && x < |comp|
    requires IsWalk(E, p, x, y)
    ensures y < |comp| && comp[x] == comp[y]
    decreases |p|
  {
    if |p| > 1 {
      assert Adjacent(E, p[0], p[1]);
      assert IsWalk(E, p[1..], p[1], y);
      LabelsAgreeAlongWalk(E, comp, p[1..], p[1], y);
    }
  }

  lemma LabelsAgreeWhenLinked(E: set<Edge>, comp: seq<nat>, x: nat, y: nat)
    requires Respects(E, comp) && x < |comp|
    requires Linked(E, x, y)
    ensures y < |comp| && comp[x] == comp[y]
  {
    var p :| IsWalk(E, p, x, y);
    LabelsAgreeAlongWalk(E, comp, p, x, y);
  }

  /** The state kept by the component search after the edges D have been
      merged: canonical labels, each node linked to its comp, and every
      merged edge inside one label class. */
  ghost predicate MergedUpTo(D: set<Edge>, n: nat, comp: seq<nat>)
  {
    && |comp| == n
    && Canonical(comp)
    && (forall x :: 0 <= x < n ==> Linked(D, comp[x], x))
    && Respects(D, comp)
  }

  /** Joins the classes of a and b: the larger label is replaced by the smaller. */
  function Merge(comp: seq<nat>, a: nat, b: nat): (r: seq<nat>)
    requires a < |comp| && b < |comp|
    ensures |r| == |comp|
  {
    var keep := if comp[a] <= comp[b] then comp[a] else comp[b];
    var gone := if comp[a] <= comp[b] then comp[b] else comp[a];
    seq(|comp|, x requires 0 <= x < |comp| => if comp[x] == gone then keep else comp[x])
  }

  lemma {:induction false} MergeStep(D: set<Edge>, n: nat, comp: seq<nat>, a: nat, b: nat)
    requires a < n && b < n
    requires MergedUpTo(D, n, comp)
    ensures MergedUpTo(D + {(a, b)}, n, Merge(comp, a, b))
  {
    var D' := D + {(a, b)};
    var r := Merge(comp, a, b);
    var la, lb := comp[a], comp[b];
    var keep := if la <= lb then la else lb;
    var gone := if la <= lb then lb else la;
    // the node that carried the surviving label and the one that carried the dropped one
    var k, g := if la <= lb then a else b, if la <= lb then b else a;
    assert comp[k] == keep && comp[g] == gone;
    LinkedByEdge(D', k, g);
    assert Linked(D, keep, k) && Linked(D, gone, g);
    LinkedMonotone(D, D', keep, k);
    LinkedMonotone(D, D', gone, g);
    LinkedSymmetric(D', gone, g);
    LinkedTransitive(D', keep, k, g);
    LinkedTransitive(D', keep, g, gone);
    forall x | 0 <= x < n
      ensures Linked(D', r[x], x)
    {
      assert Linked(D, comp[x], x);
      LinkedMonotone(D, D', comp[x], x);
      if comp[x] == gone {
        LinkedTransitive(D', keep, gone, x);
      }
    }
    forall x | 0 <= x < n
      ensures r[x] <= x && r[r[x]] == r[x]
    {
      assert comp[comp[x]] == comp[x];
      assert comp[keep] == keep;
    }
    forall e | e in D'
      ensures e.0 < n && e.1 < n && r[e.0] == r[e.1]
    {
      if e != (a, b) {
        assert e in D;
      }
    }
  }

  /** Before any edge is merged every node is its own class. */
  lemma NothingMergedYet(n: nat, comp: seq<nat>)
    requires comp == seq(n, x requires 0 <= x < n => x)
    ensures MergedUpTo({}, n, comp)
  {
    forall x | 0 <= x < n
      ensures Linked({}, comp[x], x)
    {
      LinkedReflexive({}, x);
    }
  }

  /** Canonical labels that respect the edges and link each node to its label
      are exactly the roots. */
  lemma CanonicalLabelsAreRoots(E: set<Edge>, n: nat, comp: seq<nat>)
    requires MergedUpTo(E, n, comp)
    ensures forall x :: 0 <= x < n ==> comp[x] == Root(E, x)
  {
    forall x | 0 <= x < n
      ensures comp[x] == Root(E, x)
    {
      var r := Root(E, x);
      LinkedSymmetric(E, r, x);
      LabelsAgreeWhenLinked(E, comp, x, r);
      assert Linked(E, comp[r], r);
      LinkedTransitive(E, comp[r], r, x);
      assert comp[x] == comp[r] <= r;
    }
  }

  /** The loop of the component search: the edges `done` are merged and the
      edges `rest` still wait. */
  ghost predicate MergeProgress(E: set<Edge>, n: nat, rest: set<Edge>, done: set<Edge>, comp: seq<nat>)
  {
    EdgesWithin(E, n) && rest !! done && rest + done == E && MergedUpTo(done, n, comp)
  }

  lemma MergeProgressStep(E: set<Edge>, n: nat, rest: set<Edge>, done: set<Edge>, comp: seq<nat>, e: Edge)
    requires MergeProgress(E, n, rest, done, comp) && e in rest
    ensures e.0 < |comp| && e.1 < |comp|
    ensures MergeProgress(E, n, rest - {e}, done + {e}, Merge(comp, e.0, e.1))
  {
    assert e == (e.0, e.1) && e in E;
    MergeStep(done, n, comp, e.0, e.1);
  }

  lemma MergeProgressDone(E: set<Edge>, n: nat, rest: set<Edge>, done: set<Edge>, comp: seq<nat>)
    requires MergeProgress(E, n, rest, done, comp) && rest == {}
    ensures |comp| == n
    ensures forall x :: 0 <= x < n ==> comp[x] == Root(E, x)
  {
    assert done == E;
    CanonicalLabelsAreRoots(E, n, comp);
  }

  /** Computes the component of every node: after the call each node is
      labelled with the least node of its component. Stands for the graph
      library's connected-components traversal. */
  method ConnectedComponents(n: nat, E: set<Edge>) returns (comp: seq<nat>)
    requires EdgesWithin(E, n)
    ensures |comp| == n
    ensures forall x :: 0 <= x < n ==> comp[x] == Root(E, x)
  {
    comp := seq(n, x requires 0 <= x < n => x);
    NothingMergedYet(n, comp);
    assert MergeProgress(E, n, E, {}, comp);
    var rest := E;
    ghost var done: set<Edge> := {};
    while rest != {}
      invariant MergeProgress(E, n, rest, done, comp)
      decreases |rest|
    {
      var e :| e in rest;
      MergeProgressStep(E, n, rest, done, comp, e);
      comp := Merge(comp, e.0, e.1);
      done := done + {e};
      rest := rest - {e};
    }
    MergeProgressDone(E, n, rest, done, comp);
    CanonicalLabelsAreRoots(E, n, comp);
  }
}

=== FILE: expected_names.dfy ===
/** Names of the expected modules and the names clusters are exported under.
    The expected names are the stems `wfc_module_<n>` of the `.mesh` files
    beside the scene, ordered by their integer suffix; a name whose suffix is
    not an integer sorts with the key 1000000. A cluster takes the expected
    name at its position when there are exactly as many names as clusters,
    and `wfc_module_<idx>` otherwise. */
module ExpectedNames {
  import opened Options
  import opened Chars
  import opened StableSort

  /** The text after the last '_' of a name: Python's `n.split("_")[-1]`.
      It is the longest suffix without '_'. */
  function LastSegment(s: string): (r: string)
    ensures '_' !in r
    ensures |r| <= |s| && r == s[|s| - |r|..]
    ensures |r| < |s| ==> s[|s| - |r| - 1] == '_'
  {
    if s == [] then []
    else if s[|s| - 1] == '_' then []
    else LastSegment(s[..|s| - 1]) + [s[|s| - 1]]
  }

  /** After a prefix ending in '_', an underscore-free tail is the last segment. */
  lemma LastSegmentAfterUnderscore(p: string, d: string)
    requires |p| > 0 && p[|p| - 1] == '_' && '_' !in d
    ensures LastSegment(p + d) == d
  {
    var s := p + d;
    assert s[|s| - |d|..] == d;
  }

  /** The ASCII characters Python's `int()` skips around a number: space,
      tab, line feed, vertical tab, form feed and carriage return. The
      separators 0x1C-0x1F, which `str.strip` would remove, are not among
      them. */
  predicate IsSpace(c: char)
  {
    c == ' ' || ('\t' <= c <= '\r')
  }

  predicate AllDigits(s: string)
  {
    forall i :: 0 <= i < |s| ==> IsDigit(s[i])
  }

  predicate AllSpaces(s: string)
  {
    forall i :: 0 <= i < |s| ==> IsSpace(s[i])
  }

  function TrimStart(s: string): (r: string)
    ensures forall c :: c in r ==> c in s
    ensures r == [] || !IsSpace(r[0])
  {
    if s != [] && IsSpace(s[0]) then TrimStart(s[1..]) else s
  }

  function TrimEnd(s: string): (r: string)
    ensures forall c :: c in r ==> c in s
    ensures r == [] || !IsSpace(r[|r| - 1])
  {
    if s != [] && IsSpace(s[|s| - 1]) then TrimEnd(s[..|s| - 1]) else s
  }

  /** The value of a string of decimal digits. */
  function DigitsValue(ds: string): (v: nat)
    requires AllDigits(ds)
  {
    if ds == [] then 0
    else DigitsValue(ds[..|ds| - 1]) * 10 + (ds[|ds| - 1] as int - '0' as int)
  }

  /** Python's `int()` on a string, for ASCII input without '_': surrounding
      whitespace, an optional sign and at least one decimal digit; anything
      else is an error. */
  function ParseInt(s: string): (r: Option<int>)
    ensures s != [] && AllDigits(s) ==> r == Some(DigitsValue(s))
  {
    ParseTrimmed(TrimEnd(TrimStart(s)))
  }

  /** An optional sign followed by at least one decimal digit. */
  function ParseTrimmed(t: string): Option<int>
  {
    if |t| > 0 && (t[0] == '+' || t[0] == '-') then
      var ds := t[1..];
      if ds != [] && AllDigits(ds) then
        var v: int := DigitsValue(ds);
        Some(if t[0] == '-' then -v else v)
      else None
    else if t != [] && AllDigits(t) then Some(DigitsValue(t))
    else None
  }

  /** The sort key of an expected name: its integer suffix, or 1000000 when
      the suffix does not parse. */
  function SuffixKey(name: string): int
  {
    match ParseInt(LastSegment(name))
    case Some(v) => v
    case None => 1000000
  }

  function DigitChar(d: nat): (c: char)
    requires d < 10
    ensures IsDigit(c) && c as int - '0' as int == d
  {
    (d + '0' as int) as char
  }

  /** The decimal notation of n, as Python's `str()` writes it. */
  function Decimal(n: nat): (r: string)
    ensures |r| > 0 && AllDigits(r) && DigitsValue(r) == n
    ensures '_' !in r
    ensures r[0] == '0' ==> r == "0"
  {
    if n < 10 then [DigitChar(n)]
    else
      var r := Decimal(n / 10) + [DigitChar(n % 10)];
      assert r[..|r| - 1] == Decimal(n / 10);
      r
  }

  /** The decimal notation of an integer, with a '-' before a negative one. */
  function Show(i: int): string
  {
    if i < 0 then "-" + Decimal(-i) else Decimal(i)
  }

  /** Trimming leading whitespace keeps every other character. */
  lemma {:induction false} TrimStartKeeps(s: string, c: char)
    requires c in s && !IsSpace(c)
    ensures c in TrimStart(s)
    decreases |s|
  {
    if IsSpace(s[0]) {
      assert c in s[1..];
      TrimStartKeeps(s[1..], c);
    }
  }

  /** Trimming trailing whitespace keeps every other character. */
  lemma {:induction false} TrimEndKeeps(s: string, c: char)
    requires c in s && !IsSpace(c)
    ensures c in TrimEnd(s)
    decreases |s|
  {
    if IsSpace(s[|s| - 1]) {
      assert c in s[..|s| - 1];
      TrimEndKeeps(s[..|s| - 1], c);
    }
  }

  /** TrimStart drops a prefix of whitespace and keeps the rest. */
  lemma {:induction false} TrimStartSplits(s: string)
    ensures |TrimStart(s)| <= |s|
    ensures s[|s| - |TrimStart(s)|..] == TrimStart(s)
    ensures AllSpaces(s[..|s| - |TrimStart(s)|])
    decreases |s|
  {
    if s != [] && IsSpace(s[0]) {
      TrimStartSplits(s[1..]);
      var r := TrimStart(s[1..]);
      assert s[1..][..|s| - 1 - |r|] == s[1..|s| - |r|];
      assert s[..|s| - |r|] == [s[0]] + s[1..|s| - |r|];
    }
  }

  /** TrimEnd drops a suffix of whitespace and keeps the rest. */
  lemma {:induction false} TrimEndSplits(s: string)
    ensures |TrimEnd(s)| <= |s|
    ensures s[..|TrimEnd(s)|] == TrimEnd(s)
    ensures AllSpaces(s[|TrimEnd(s)|..])
    decreases |s|
  {
    if s != [] && IsSpace(s[|s| - 1]) {
      var s' := s[..|s| - 1];
      TrimEndSplits(s');
      var r := TrimEnd(s');
      assert s[|r|..] == s'[|r|..] + [s[|s| - 1]];
    }
  }

  /** Leading whitespace before a non-space is trimmed away exactly. */
  lemma {:induction false} TrimStartSkipsSpaces(pre: string, x: string)
    requires AllSpaces(pre) && x != [] && !IsSpace(x[0])
    ensures TrimStart(pre + x) == x
    decreases |pre|
  {
    if pre != [] {
      assert (pre + x)[1..] == pre[1..] + x;
      TrimStartSkipsSpaces(pre[1..], x);
    }
  }

  /** Trailing whitespace after a non-space is trimmed away exactly. */
  lemma {:induction false} TrimEndSkipsSpaces(x: string, post: string)
    requires AllSpaces(post) && x != [] && !IsSpace(x[|x| - 1])
    ensures TrimEnd(x + post) == x
    decreases |post|
  {
    if post != [] {
      var post' := post[..|post| - 1];
      assert (x + post)[..|x + post| - 1] == x + post';
      TrimEndSkipsSpaces(x, post');
    } else {
      assert x + post == x;
    }
  }

  lemma ParseTrimmedShow(i: int)
    ensures ParseTrimmed(Show(i)) == Some(i)
  {
    if i < 0 {
      assert Show(i)[1..] == Decimal(-i);
    }
  }

  lemma TrimAround(pre: string, x: string, post: string)
    requires AllSpaces(pre) && AllSpaces(post)
    requires x != [] && !IsSpace(x[0]) && !IsSpace(x[|x| - 1])
    ensures TrimEnd(TrimStart(pre + x + post)) == x
  {
    assert pre + x + post == pre + (x + post);
    TrimStartSkipsSpaces(pre, x + post);
    TrimEndSkipsSpaces(x, post);
  }

  /** Parsing undoes showing, whatever whitespace surrounds the number. */
  lemma ParseShow(pre: string, i: int, post: string)
    requires AllSpaces(pre) && AllSpaces(post)
    ensures ParseInt(pre + Show(i) + post) == Some(i)
  {
    var shown := Show(i);
    assert !IsSpace(shown[0]) && !IsSpace(shown[|shown| - 1]);
    TrimAround(pre, shown, post);
    ParseTrimmedShow(i);
  }

  /** The name an unnamed cluster gets: `wfc_module_<idx>`. */
  function FallbackName(idx: nat): string
  {
    "wfc_module_" + Decimal(idx)
  }

  /** A fallback name sorts by its own index. */
  lemma FallbackNameKey(idx: nat)
    ensures SuffixKey(FallbackName(idx)) == idx
  {
    var d := Decimal(idx);
    LastSegmentAfterUnderscore("wfc_module_", d);
    assert LastSegment(FallbackName(idx)) == d;
    ParseShow([], idx, []);
    assert [] + Show(idx) + [] == d;
    assert ParseInt(d) == Some(idx);
  }

  /** Distinct clusters get distinct fallback names. */
  lemma FallbackNamesDistinct(i: nat, j: nat)
    requires i != j
    ensures FallbackName(i) != FallbackName(j)
  {
    FallbackNameKey(i);
    FallbackNameKey(j);
  }

  /** Text without a digit is not a number. */
  lemma ParseTrimmedNeedsDigit(t: string)
    requires forall c :: c in t ==> !IsDigit(c)
    ensures ParseTrimmed(t) == None
  {
    if |t| > 1 {
      assert t[1] in t;
    }
    if |t| > 0 {
      assert t[0] in t;
    }
  }

  /** Text without a digit does not parse. */
  lemma ParseIntNeedsDigit(s: string)
    requires forall c :: c in s ==> !IsDigit(c)
    ensures ParseInt(s) == None
  {
    ParseTrimmedNeedsDigit(TrimEnd(TrimStart(s)));
  }

  /** Text holding a character that is neither a digit, whitespace nor a
      sign does not parse: "3b" and "1.5" are rejected. */
  lemma ParseIntRejectsOther(s: string, c: char)
    requires c in s && !IsDigit(c) && !IsSpace(c) && c != '+' && c != '-'
    ensures ParseInt(s) == None
  {
    TrimStartKeeps(s, c);
    var t := TrimEnd(TrimStart(s));
    TrimEndKeeps(TrimStart(s), c);
    var i :| 0 <= i < |t| && t[i] == c;
    if t[0] == '+' || t[0] == '-' {
      assert t[1..][i - 1] == c;
    }
  }

  /** s is whitespace, a sign (possibly empty), a non-empty run of digits
      and whitespace, and v is the run's value with the sign applied. */
  predicate SignedNumber(s: string, pre: string, sign: string, ds: string, post: string, v: int)
  {
    && s == pre + sign + ds + post
    && AllSpaces(pre) && AllSpaces(post)
    && (sign == "" || sign == "+" || sign == "-")
    && ds != [] && AllDigits(ds)
    && v == (if sign == "-" then -(DigitsValue(ds) as int) else DigitsValue(ds) as int)
  }

  /** Only an optionally signed run of digits, with whitespace around it,
      parses, and its value is the run's value with the sign applied. So
      "1 2", "1-2", "5+" and "+-3" are rejected. */
  lemma ParseIntAccepts(s: string)
    requires ParseInt(s).Some?
    ensures exists pre, sign, ds, post :: SignedNumber(s, pre, sign, ds, post, ParseInt(s).value)
  {
    var pre, t, post := TrimmedParts(s);
    var sign, ds := SplitSign(t);
    assert s == pre + sign + ds + post by {
      assert s == pre + (sign + ds) + post;
    }
    assert SignedNumber(s, pre, sign, ds, post, ParseInt(s).value);
  }

  /** s is the text ParseInt reads with whitespace on either side. */
  lemma TrimmedParts(s: string) returns (pre: string, t: string, post: string)
    ensures s == pre + t + post && AllSpaces(pre) && AllSpaces(post)
    ensures t == TrimEnd(TrimStart(s))
  {
    var u := TrimStart(s);
    TrimStartSplits(s);
    pre := s[..|s| - |u|];
    assert s == pre + u;
    t := TrimEnd(u);
    TrimEndSplits(u);
    post := u[|t|..];
    assert u == t + post;
  }

  /** A text that parses after trimming is a sign, possibly empty, and a
      non-empty run of digits. */
  lemma SplitSign(t: string) returns (sign: string, ds: string)
    requires ParseTrimmed(t).Some?
    ensures t == sign + ds
    ensures sign == "" || sign == "+" || sign == "-"
    ensures ds != [] && AllDigits(ds)
    ensures ParseTrimmed(t).value == (if sign == "-" then -(DigitsValue(ds) as int) else DigitsValue(ds) as int)
  {
    if t[0] == '+' || t[0] == '-' {
      sign, ds := [t[0]], t[1..];
    } else {
      sign, ds := [], t;
    }
  }

  /** A last segment holding a character other than a digit, whitespace or
      a sign gets the key 1000000. */
  lemma OtherCharGetsFallbackKey(name: string, c: char)
    requires c in LastSegment(name) && !IsDigit(c) && !IsSpace(c) && c != '+' && c != '-'
    ensures SuffixKey(name) == 1000000
  {
    ParseIntRejectsOther(LastSegment(name), c);
  }

  /** The separator 0x1C is not skipped by `int()`, so a suffix padded with
      it falls back to the key 1000000 although `str.strip` would remove it. */
  lemma SeparatorPaddedSuffixFallsBack()
    ensures SuffixKey("wfc_module_\U{1C}5") == 1000000
  {
    LastSegmentAfterUnderscore("wfc_module_", "\U{1C}5");
    assert "wfc_module_" + "\U{1C}5" == "wfc_module_\U{1C}5";
    OtherCharGetsFallbackKey("wfc_module_\U{1C}5", '\U{1C}');
  }

  /** A name ending in '_' and an integer, with whitespace around it, has
      that integer as its key. */
  lemma SuffixKeyOfNumber(p: string, pre: string, i: int, post: string)
    requires |p| > 0 && p[|p| - 1] == '_'
    requires AllSpaces(pre) && AllSpaces(post)
    ensures SuffixKey(p + pre + Show(i) + post) == i
  {
    var tail := pre + Show(i) + post;
    assert '_' !in tail by {
      forall k | 0 <= k < |tail|
        ensures tail[k] != '_'
      {
        if k < |pre| {
          assert IsSpace(pre[k]);
        } else if k < |pre| + |Show(i)| {
          assert tail[k] == Show(i)[k - |pre|];
          assert i >= 0 ==> Show(i) == Decimal(i);
          assert i < 0 ==> Show(i) == "-" + Decimal(-i);
        } else {
          assert IsSpace(post[k - |pre| - |Show(i)|]);
        }
      }
    }
    assert p + pre + Show(i) + post == p + tail;
    LastSegmentAfterUnderscore(p, tail);
    ParseShow(pre, i, post);
  }

  /** A name whose last segment holds no digit sorts last, with key 1000000. */
  lemma NoDigitGetsFallbackKey(name: string)
    requires forall c :: c in LastSegment(name) ==> !IsDigit(c)
    ensures SuffixKey(name) == 1000000
  {
    ParseIntNeedsDigit(LastSegment(name));
  }

  /** The expected names in the order `get_expected_names` returns them,
      given the stems in the order the directory listing yields them. */
  function OrderExpected(names: seq<string>): (r: seq<string>)
    ensures SortedBy(r, SuffixKey)
    ensures multiset(r) == multiset(names)
  {
    SortBySorted(names, SuffixKey);
    SortByPermutes(names, SuffixKey);
    SortBy(names, SuffixKey)
  }

  /** The expected names come out ordered by suffix key, with the same names,
      and names with equal keys in their listing order. */
  lemma OrderExpectedIsStableSort(names: seq<string>)
    ensures SortedBy(OrderExpected(names), SuffixKey)
    ensures multiset(OrderExpected(names)) == multiset(names)
    ensures forall k :: WithKey(OrderExpected(names), SuffixKey, k) == WithKey(names, SuffixKey, k)
  {
    forall k
      ensures WithKey(OrderExpected(names), SuffixKey, k) == WithKey(names, SuffixKey, k)
    {
      SortByStable(names, SuffixKey, k);
    }
  }

  /** The names to export under: the expected names when there are some and
      exactly one per cluster, else none. */
  function NamesForExport(expected: seq<string>, clusterCount: nat): Option<seq<string>>
  {
    if |expected| > 0 && |expected| == clusterCount then Some(expected) else None
  }

  /** The warning that expected names exist but are not used. */
  predicate MismatchWarning(expected: seq<string>, names: Option<seq<string>>)
  {
    |expected| > 0 && (names.None? || |names.value| == 0)
  }

  /** The base file name of cluster idx: the name at its position, or
      `wfc_module_<idx>` without names or past their end. */
  function ExportBase(names: Option<seq<string>>, idx: nat): string
  {
    if names.Some? && |names.value| > 0 && idx < |names.value| then names.value[idx]
    else FallbackName(idx)
  }

  /** Clusters are named positionally exactly when the counts agree, and the
      warning is given exactly when expected names exist and the counts differ. */
  lemma ExportNaming(expected: seq<string>, clusterCount: nat, idx: nat)
    requires idx < clusterCount
    ensures ExportBase(NamesForExport(expected, clusterCount), idx)
            == if |expected| == clusterCount then expected[idx] else FallbackName(idx)
    ensures MismatchWarning(expected, NamesForExport(expected, clusterCount))
            <==> |expected| > 0 && |expected| != clusterCount
  {
  }

  /** Two clusters never share a base name, provided the expected names are
      distinct, as file stems of one directory are. */
  lemma ExportBasesDistinct(expected: seq<string>, clusterCount: nat, i: nat, j: nat)
    requires forall a, b :: 0 <= a < b < |expected| ==> expected[a] != expected[b]
    requires i < clusterCount && j < clusterCount && i != j
    ensures ExportBase(NamesForExport(expected, clusterCount), i)
            != ExportBase(NamesForExport(expected, clusterCount), j)
  {
    if |expected| != clusterCount {
      FallbackNamesDistinct(i, j);
    }
  }
}

=== FILE: grouping.dfy ===
/** From component labels to the list of clusters `cluster_meshes` returns: one
    cluster per component, its members in ascending order, and the clusters in
    ascending order of their first (least) member. */
module Grouping {
  import opened Components

  predicate StrictlyAscending(s: seq<nat>)
  {
    forall i, j :: 0 <= i < j < |s| ==> s[i] < s[j]
  }

  /** The nodes k..|comp|-1 that carry label s, in ascending order. */
  function Members(comp: seq<nat>, s: nat, k: nat): (m: seq<nat>)
    ensures forall x :: x in m <==> k <= x < |comp| && comp[x] == s
    ensures forall i :: 0 <= i < |m| ==> k <= m[i]
    ensures StrictlyAscending(m)
    decreases |comp| - k
  {
    if k >= |comp| then []
    else (if comp[k] == s then [k] else []) + Members(comp, s, k + 1)
  }

  /** One group per self-labelled node r in k..|comp|-1, holding the nodes
      labelled r, in ascending order of r. */
  function GroupsFrom(comp: seq<nat>, k: nat): (g: seq<seq<nat>>)
    ensures forall q :: 0 <= q < |g| ==>
      && |g[q]| > 0 && k <= g[q][0] < |comp| && comp[g[q][0]] == g[q][0]
      && g[q] == Members(comp, g[q][0], g[q][0])
    decreases |comp| - k
  {
    if k >= |comp| then []
    else if comp[k] == k then
      var m := Members(comp, k, k);
      assert k in m;
      [m] + GroupsFrom(comp, k + 1)
    else GroupsFrom(comp, k + 1)
  }

  /** The groups come in strictly ascending order of their leaders. */
  lemma {:induction false} GroupsFromOrdered(comp: seq<nat>, k: nat)
    ensures forall q1, q2 :: 0 <= q1 < q2 < |GroupsFrom(comp, k)| ==>
      GroupsFrom(comp, k)[q1][0] < GroupsFrom(comp, k)[q2][0]
    decreases |comp| - k
  {
    if k < |comp| {
      GroupsFromOrdered(comp, k + 1);
      if comp[k] == k {
        var g, g' := GroupsFrom(comp, k), GroupsFrom(comp, k + 1);
        assert g == [Members(comp, k, k)] + g';
        forall q1, q2 | 0 <= q1 < q2 < |g|
          ensures g[q1][0] < g[q2][0]
        {
          assert g[q2] == g'[q2 - 1];
          if q1 > 0 {
            assert g[q1] == g'[q1 - 1];
          }
        }
      }
    }
  }

  /** There are at most as many groups as nodes from k on. */
  lemma {:induction false} GroupsFromCount(comp: seq<nat>, k: nat)
    requires k <= |comp|
    ensures |GroupsFrom(comp, k)| <= |comp| - k
    decreases |comp| - k
  {
    if k < |comp| {
      GroupsFromCount(comp, k + 1);
    }
  }

  /** Some group of GroupsFrom(comp, k) is led by r. */
  ghost predicate LeadsGroupFrom(comp: seq<nat>, k: nat, r: nat)
  {
    exists q :: 0 <= q < |GroupsFrom(comp, k)| && GroupsFrom(comp, k)[q][0] == r
  }

  /** A self-labelled node before the leader adds a group in front. */
  lemma LeadsGroupAfterLeader(comp: seq<nat>, k: nat, r: nat)
    requires k < |comp| && comp[k] == k && LeadsGroupFrom(comp, k + 1, r)
    ensures LeadsGroupFrom(comp, k, r)
  {
    var g, g' := GroupsFrom(comp, k), GroupsFrom(comp, k + 1);
    var q :| 0 <= q < |g'| && g'[q][0] == r;
    assert g == [Members(comp, k, k)] + g';
    assert g[q + 1] == g'[q];
  }

  /** A node that is not self-labelled adds no group. */
  lemma LeadsGroupAfterMember(comp: seq<nat>, k: nat, r: nat)
    requires k < |comp| && comp[k] != k && LeadsGroupFrom(comp, k + 1, r)
    ensures LeadsGroupFrom(comp, k, r)
  {
    var q :| 0 <= q < |GroupsFrom(comp, k + 1)| && GroupsFrom(comp, k + 1)[q][0] == r;
    assert GroupsFrom(comp, k)[q][0] == r;
  }

  /** Every self-labelled node r in k..|comp|-1 leads a group. */
  lemma {:induction false} GroupsFromHasGroupOf(comp: seq<nat>, k: nat, r: nat)
    requires k <= r < |comp| && comp[r] == r
    ensures LeadsGroupFrom(comp, k, r)
    decreases |comp| - k
  {
    if r == k {
      assert GroupsFrom(comp, k)[0][0] == r;
    } else {
      GroupsFromHasGroupOf(comp, k + 1, r);
      if comp[k] == k {
        LeadsGroupAfterLeader(comp, k, r);
      } else {
        LeadsGroupAfterMember(comp, k, r);
      }
    }
  }

  /** The clusters of a labelling, ordered by their least member. */
  function GroupByLabel(comp: seq<nat>): seq<seq<nat>>
  {
    GroupsFrom(comp, 0)
  }

  /** Every node 0..n-1 is in exactly one cluster, and no cluster is empty. */
  ghost predicate IsPartition(P: seq<seq<nat>>, n: nat)
  {
    && (forall q :: 0 <= q < |P| ==> |P[q]| > 0)
    && (forall q, i :: 0 <= q < |P| && 0 <= i < |P[q]| ==> P[q][i] < n)
    && (forall x :: 0 <= x < n ==> InCluster(P, x))
    && (forall q1, q2, x :: 0 <= q1 < |P| && 0 <= q2 < |P| && x in P[q1] && x in P[q2] ==> q1 == q2)
  }

  /** Each cluster is strictly ascending and the clusters are in strictly
      ascending order of their first element. */
  ghost predicate IsOrdered(P: seq<seq<nat>>)
  {
    && (forall q :: 0 <= q < |P| ==> |P[q]| > 0 && StrictlyAscending(P[q]))
    && (forall q1, q2 :: 0 <= q1 < q2 < |P| ==> P[q1][0] < P[q2][0])
  }

  ghost predicate InCluster(P: seq<seq<nat>>, x: nat)
  {
    exists q :: 0 <= q < |P| && x in P[q]
  }

  ghost predicate InSameCluster(P: seq<seq<nat>>, x: nat, y: nat)
  {
    exists q :: 0 <= q < |P| && x in P[q] && y in P[q]
  }

  /** Grouping canonical labels yields a sorted partition whose clusters are
      the label classes. */
  lemma GroupByLabelIsSortedPartition(comp: seq<nat>)
    requires Canonical(comp)
    ensures IsPartition(GroupByLabel(comp), |comp|)
    ensures IsOrdered(GroupByLabel(comp))
    ensures forall q, x: nat :: 0 <= q < |GroupByLabel(comp)| ==>
      (x in GroupByLabel(comp)[q] <==> x < |comp| && comp[x] == GroupByLabel(comp)[q][0])
  {
    var P := GroupByLabel(comp);
    GroupsFromOrdered(comp, 0);
    forall q, i | 0 <= q < |P| && 0 <= i < |P[q]|
      ensures P[q][i] < |comp|
    {
      assert P[q][i] in Members(comp, P[q][0], P[q][0]);
    }
    forall x | 0 <= x < |comp|
      ensures InCluster(P, x)
    {
      var r := comp[x];
      assert SelfLabelled(comp, r);
      GroupsFromHasGroupOf(comp, 0, r);
      var q :| 0 <= q < |P| && P[q][0] == r;
      assert x in Members(comp, r, r);
    }
    forall q1, q2, x | 0 <= q1 < |P| && 0 <= q2 < |P| && x in P[q1] && x in P[q2]
      ensures q1 == q2
    {
      assert P[q1][0] == comp[x] == P[q2][0];
    }
  }

  /** Two nodes share a cluster exactly when they share a label. */
  lemma SameClusterIffSameLabel(comp: seq<nat>, x: nat, y: nat)
    requires Canonical(comp)
    requires x < |comp| && y < |comp|
    ensures InSameCluster(GroupByLabel(comp), x, y) <==> comp[x] == comp[y]
  {
    var P := GroupByLabel(comp);
    GroupByLabelIsSortedPartition(comp);
    if comp[x] == comp[y] {
      assert InCluster(P, x);
      var q :| 0 <= q < |P| && x in P[q];
      assert y in P[q];
    }
  }

  /** A labelling with fewer self-labelled nodes has fewer groups. */
  lemma {:induction false} FewerGroups(fine: seq<nat>, coarse: seq<nat>, k: nat)
    requires |fine| == |coarse|
    requires forall r :: 0 <= r < |coarse| && coarse[r] == r ==> fine[r] == r
    ensures |GroupsFrom(coarse, k)| <= |GroupsFrom(fine, k)|
    decreases |coarse| - k
  {
    if k < |coarse| {
      FewerGroups(fine, coarse, k + 1);
    }
  }

  /** Under self-labelling no node after s carries label s. */
  lemma {:induction false} NoLaterMembers(comp: seq<nat>, s: nat, k: nat)
    requires s < k
    requires forall x :: 0 <= x < |comp| ==> comp[x] == x
    ensures Members(comp, s, k) == []
    decreases |comp| - k
  {
    if k < |comp| {
      assert comp[k] != s;
      NoLaterMembers(comp, s, k + 1);
      assert Members(comp, s, k) == [] + [];
    }
  }

  /** The groups [k], [k+1], ..., [n-1]. */
  function Singletons(k: nat, n: nat): (g: seq<seq<nat>>)
    ensures |g| == if k <= n then n - k else 0
    ensures forall i :: 0 <= i < |g| ==> g[i] == [k + i]
    decreases n - k
  {
    if k >= n then [] else [[k]] + Singletons(k + 1, n)
  }

  /** When every node labels itself, every node is a group of its own. */
  lemma {:induction false} SelfLabelsGiveSingletons(comp: seq<nat>, k: nat)
    requires forall x :: 0 <= x < |comp| ==> comp[x] == x
    ensures GroupsFrom(comp, k) == Singletons(k, |comp|)
    decreases |comp| - k
  {
    if k < |comp| {
      NoLaterMembers(comp, k, k + 1);
      assert Members(comp, k, k) == [k] + Members(comp, k, k + 1);
      assert [k] + [] == [k];
      assert Members(comp, k, k) == [k];
      SelfLabelsGiveSingletons(comp, k + 1);
      assert comp[k] == k;
      calc {
        GroupsFrom(comp, k);
        [Members(comp, k, k)] + GroupsFrom(comp, k + 1);
        [[k]] + Singletons(k + 1, |comp|);
        Singletons(k, |comp|);
      }
    }
  }
}

=== FILE: obj_names.dfy ===
/** File names for exported meshes. A node's name is sanitised: every maximal
    run of characters outside `[A-Za-z0-9_-]` becomes one '_', surrounding
    underscores are dropped, and an empty result becomes "mesh". When the
    node and geometry names mention a module tag `wfc_module_<digits>`
    (in any letter case), the leftmost tag is the name instead. */
module ObjNames {
  import opened Options
  import opened Chars

  /** The characters a sanitised name may hold: ASCII letters and digits,
      '_' and '-'. */
  predicate IsNameChar(c: char)
  {
    ('A' <= c <= 'Z') || ('a' <= c <= 'z') || ('0' <= c <= '9') || c == '_' || c == '-'
  }

  predicate AllNameChars(s: string)
  {
    forall i :: 0 <= i < |s| ==> IsNameChar(s[i])
  }

  /** Drops the leading run of characters outside the name set. */
  function SkipRun(s: string): (r: string)
    ensures |r| <= |s|
    ensures r == [] || IsNameChar(r[0])
  {
    if s != [] && !IsNameChar(s[0]) then SkipRun(s[1..]) else s
  }

  /** What is left is a suffix of s. */
  lemma {:induction false} SkipRunSuffix(s: string)
    ensures SkipRun(s) == s[|s| - |SkipRun(s)|..]
  {
    if s != [] && !IsNameChar(s[0]) {
      SkipRunSuffix(s[1..]);
    }
  }

  /** What is left ends where s ends. */
  lemma {:induction false} SkipRunLast(s: string)
    requires SkipRun(s) != []
    ensures SkipRun(s)[|SkipRun(s)| - 1] == s[|s| - 1]
  {
    if !IsNameChar(s[0]) {
      SkipRunLast(s[1..]);
    }
  }

  /** Nothing is left only when all of s is outside the name set. */
  lemma {:induction false} SkipRunEmpty(s: string)
    requires SkipRun(s) == []
    ensures forall i :: 0 <= i < |s| ==> !IsNameChar(s[i])
  {
    if s != [] {
      SkipRunEmpty(s[1..]);
      assert forall i :: 1 <= i < |s| ==> s[i] == s[1..][i - 1];
    }
  }

  /** The regular-expression substitution of the sanitiser: each maximal run
      of characters outside the name set is replaced by a single '_'. */
  function Collapse(s: string): (r: string)
    ensures AllNameChars(r)
    decreases |s|
  {
    if s == [] then []
    else if IsNameChar(s[0]) then [s[0]] + Collapse(s[1..])
    else "_" + Collapse(SkipRun(s[1..]))
  }

  /** A name made of allowed characters only passes through unchanged. */
  lemma {:induction false} CollapseKeepsNameChars(s: string)
    requires AllNameChars(s)
    ensures Collapse(s) == s
  {
    if s != [] {
      CollapseKeepsNameChars(s[1..]);
    }
  }

  /** A nonempty run of characters outside the set becomes one '_'. */
  lemma {:induction false} CollapseRun(s: string)
    requires s != [] && forall i :: 0 <= i < |s| ==> !IsNameChar(s[i])
    ensures Collapse(s) == "_"
  {
    SkipRunWhole(s[1..], []);
    assert s[1..] + [] == s[1..];
  }

  /** When x holds a character of the name set, skipping the run at the
      start of x + b stays inside x. */
  lemma {:induction false} SkipRunAppend(x: string, b: string)
    requires SkipRun(x) != []
    ensures SkipRun(x + b) == SkipRun(x) + b
  {
    if !IsNameChar(x[0]) {
      assert (x + b)[1..] == x[1..] + b;
      SkipRunAppend(x[1..], b);
    }
  }

  /** Skipping a run that fills all of x leaves b, when b starts outside any run. */
  lemma {:induction false} SkipRunWhole(x: string, b: string)
    requires forall i :: 0 <= i < |x| ==> !IsNameChar(x[i])
    requires b == [] || IsNameChar(b[0])
    ensures SkipRun(x + b) == b
  {
    if x != [] {
      assert (x + b)[1..] == x[1..] + b;
      SkipRunWhole(x[1..], b);
    } else {
      assert x + b == b;
    }
  }

  /** The substitution works piece by piece when the join does not split a
      run: together with the two lemmas above this pins down Collapse. */
  lemma {:induction false} CollapseAppend(a: string, b: string)
    requires a == [] || b == [] || IsNameChar(a[|a| - 1]) || IsNameChar(b[0])
    ensures Collapse(a + b) == Collapse(a) + Collapse(b)
    decreases |a|, 2
  {
    if a == [] {
      assert a + b == b;
    } else if IsNameChar(a[0]) {
      var t := a[1..];
      assert (a + b)[1..] == t + b;
      assert t == [] || a[|a| - 1] == t[|t| - 1];
      CollapseAppend(t, b);
      calc {
        Collapse(a + b);
        [a[0]] + Collapse(t + b);
        [a[0]] + (Collapse(t) + Collapse(b));
        ([a[0]] + Collapse(t)) + Collapse(b);
      }
    } else if SkipRun(a[1..]) != [] {
      CollapseAppendAfterRun(a, b);
    } else {
      CollapseAppendAfterWholeRun(a, b);
    }
  }

  /** A leading run of a + b becomes one '_' before the rest. */
  lemma CollapseLeadingRun(a: string, b: string)
    requires a != [] && !IsNameChar(a[0])
    ensures Collapse(a + b) == "_" + Collapse(SkipRun(a[1..] + b))
  {
    assert (a + b)[1..] == a[1..] + b;
  }

  /** CollapseAppend when a starts with a run that does not fill it. */
  lemma {:induction false} CollapseAppendAfterRun(a: string, b: string)
    requires a != [] && !IsNameChar(a[0]) && SkipRun(a[1..]) != []
    requires b == [] || IsNameChar(a[|a| - 1]) || IsNameChar(b[0])
    ensures Collapse(a + b) == Collapse(a) + Collapse(b)
    decreases |a|, 1
  {
    var x := a[1..];
    var y := SkipRun(x);
    CollapseLeadingRun(a, b);
    SkipRunAppend(x, b);
    SkipRunLast(x);
    assert x[|x| - 1] == a[|a| - 1];
    CollapseAppend(y, b);
    assert Collapse(a) == "_" + Collapse(y);
    assert "_" + (Collapse(y) + Collapse(b)) == ("_" + Collapse(y)) + Collapse(b);
  }

  /** CollapseAppend when all of a is one run. */
  lemma CollapseAppendAfterWholeRun(a: string, b: string)
    requires a != [] && !IsNameChar(a[0]) && SkipRun(a[1..]) == []
    requires b == [] || IsNameChar(a[|a| - 1]) || IsNameChar(b[0])
    ensures Collapse(a + b) == Collapse(a) + Collapse(b)
  {
    var x := a[1..];
    assert (a + b)[1..] == x + b;
    SkipRunEmpty(x);
    assert a[|a| - 1] == if |x| > 0 then x[|x| - 1] else a[0];
    SkipRunWhole(x, b);
    assert Collapse(a) == "_";
  }

  /** `str.strip("_")`, first half: drops leading underscores. */
  function StripLeading(s: string): (r: string)
    ensures |r| <= |s| && r == s[|s| - |r|..]
    ensures r == [] || r[0] != '_'
    ensures forall i :: 0 <= i < |s| - |r| ==> s[i] == '_'
    ensures AllNameChars(s) ==> AllNameChars(r)
  {
    if s != [] && s[0] == '_' then StripLeading(s[1..]) else s
  }

  /** `str.strip("_")`, second half: drops trailing underscores. */
  function StripTrailing(s: string): (r: string)
    ensures |r| <= |s| && r == s[..|r|]
    ensures r == [] || r[|r| - 1] != '_'
    ensures forall i :: |r| <= i < |s| ==> s[i] == '_'
    ensures AllNameChars(s) ==> AllNameChars(r)
  {
    if s != [] && s[|s| - 1] == '_' then StripTrailing(s[..|s| - 1]) else s
  }

  /** The shape every sanitised name has. */
  predicate IsSanitized(s: string)
  {
    |s| > 0 && AllNameChars(s) && s[0] != '_' && s[|s| - 1] != '_'
  }

  /** `sanitize_name`. */
  function Sanitize(name: string): (r: string)
    ensures IsSanitized(r)
  {
    var c := Collapse(name);
    var t := StripTrailing(StripLeading(c));
    if t == [] then "mesh" else t
  }

  /** An already sanitised name is returned unchanged. */
  lemma SanitizeKeepsSanitized(name: string)
    requires IsSanitized(name)
    ensures Sanitize(name) == name
  {
    CollapseKeepsNameChars(name);
  }

  /** Sanitising twice is sanitising once. */
  lemma SanitizeIdempotent(name: string)
    ensures Sanitize(Sanitize(name)) == Sanitize(name)
  {
    SanitizeKeepsSanitized(Sanitize(name));
  }

  lemma {:induction false} StripLeadingUnderscores(s: string)
    requires forall i :: 0 <= i < |s| ==> s[i] == '_'
    ensures StripLeading(s) == []
  {
    if s != [] {
      StripLeadingUnderscores(s[1..]);
    }
  }

  /** Separators and underscores collapse to underscores only. */
  lemma {:induction false} CollapseSeparators(s: string)
    requires forall i :: 0 <= i < |s| ==> !IsNameChar(s[i]) || s[i] == '_'
    ensures forall i :: 0 <= i < |Collapse(s)| ==> Collapse(s)[i] == '_'
    decreases |s|
  {
    if s != [] {
      var t := if IsNameChar(s[0]) then s[1..] else SkipRun(s[1..]);
      SkipRunSuffix(s[1..]);
      assert forall i :: 0 <= i < |t| ==> t[i] == s[|s| - |t| + i];
      CollapseSeparators(t);
    }
  }

  /** A name of separators and underscores only becomes "mesh". */
  lemma SanitizeSeparatorsOnly(name: string)
    requires forall i :: 0 <= i < |name| ==> !IsNameChar(name[i]) || name[i] == '_'
    ensures Sanitize(name) == "mesh"
  {
    CollapseSeparators(name);
    StripLeadingUnderscores(Collapse(name));
  }

  // ---------------------------------------------------------------------
  // The module tag

  /** Letter case folding of ASCII letters. */
  function Lower(c: char): char
  {
    if 'A' <= c <= 'Z' then (c as int - 'A' as int + 'a' as int) as char else c
  }

  /** The fixed part of a module tag, in lower case. */
  const Tag: string := "wfc_module_"

  /** s is the fixed part of a tag in some letter case. */
  predicate IsTagPrefix(s: string)
  {
    |s| == |Tag| && forall i :: 0 <= i < |Tag| ==> Lower(s[i]) == Tag[i]
  }

  /** A module tag starts at p: the fixed part in any letter case, then a digit. */
  predicate TagAt(text: string, p: nat)
  {
    p + |Tag| < |text| && IsTagPrefix(text[p..p + |Tag|]) && IsDigit(text[p + |Tag|])
  }

  /** The end of the run of digits starting at q. */
  function DigitRunEnd(text: string, q: nat): (r: nat)
    requires q <= |text|
    ensures q <= r <= |text|
    ensures forall i :: q <= i < r ==> IsDigit(text[i])
    ensures r == |text| || !IsDigit(text[r])
    decreases |text| - q
  {
    if q < |text| && IsDigit(text[q]) then DigitRunEnd(text, q + 1) else q
  }

  /** The leftmost tag at or after `from`. */
  function FindTag(text: string, from: nat): (r: Option<nat>)
    ensures r.Some? ==> from <= r.value && TagAt(text, r.value)
    ensures r.Some? ==> forall q :: from <= q < r.value ==> !TagAt(text, q)
    ensures r.None? ==> forall q :: from <= q ==> !TagAt(text, q)
    decreases |text| - from
  {
    if from + |Tag| >= |text| then None
    else if TagAt(text, from) then Some(from)
    else FindTag(text, from + 1)
  }

  /** A name character stays one under case folding, and only one. */
  lemma LowerNameChar(c: char)
    ensures IsNameChar(Lower(c)) <==> IsNameChar(c)
  {
  }

  /** The text of the tag at p, with all of its digits. */
  function TagText(text: string, p: nat): (r: string)
    requires TagAt(text, p)
    ensures |r| > |Tag| && r[..|Tag|] == text[p..p + |Tag|]
  {
    text[p..DigitRunEnd(text, p + |Tag|)]
  }

  /** A tag is the fixed part in the letter case it was written in, then at
      least one digit, so it holds name characters only. */
  lemma TagTextShape(text: string, p: nat)
    requires TagAt(text, p)
    ensures IsTagPrefix(TagText(text, p)[..|Tag|])
    ensures forall i :: |Tag| <= i < |TagText(text, p)| ==> IsDigit(TagText(text, p)[i])
    ensures AllNameChars(TagText(text, p))
  {
    var r := TagText(text, p);
    forall i | 0 <= i < |r|
      ensures IsNameChar(r[i])
    {
      if i < |Tag| {
        assert Lower(r[..|Tag|][i]) == Tag[i];
        LowerNameChar(r[i]);
      }
    }
  }

  /** The leftmost tag is the only candidate FindTag can return. */
  lemma FindTagLeftmost(text: string, p: nat)
    requires TagAt(text, p) && forall q :: 0 <= q < p ==> !TagAt(text, q)
    ensures FindTag(text, 0) == Some(p)
  {
  }

  /** The stem of the OBJ file written for a node. A missing name is the
      empty string, which Python treats as false just like `None`. */
  function Stem(node: string, geom: string): (r: string)
    ensures |r| > 0
    ensures r == Sanitize(if node != [] then node else geom) || |r| > |Tag|
  {
    var text := node + " " + geom;
    match FindTag(text, 0)
    case Some(p) => TagText(text, p)
    case None => Sanitize(if node != [] then node else geom)
  }

  /** A reference definition of the stem that searches name by name instead
      of the joined text: the node's leftmost tag, else the geometry's
      leftmost tag, else the sanitised node name (the geometry name when the
      node has none). */
  function StemNameByName(node: string, geom: string): string
  {
    match FindTag(node, 0)
    case Some(p) => TagText(node, p)
    case None =>
      match FindTag(geom, 0)
      case Some(p) => TagText(geom, p)
      case None => Sanitize(if node != [] then node else geom)
  }

  /** A tag inside the node name is a tag of the joined text and vice versa:
      no tag can run over the separating space. */
  lemma TagAtInNode(node: string, geom: string, q: nat)
    requires q < |node|
    ensures TagAt(node + " " + geom, q) <==> TagAt(node, q)
  {
    var text := node + " " + geom;
    if q + |Tag| >= |node| {
      var k := |node| - q;
      assert text[q + k] == ' ';
      if k < |Tag| && q + |Tag| < |text| {
        assert text[q..q + |Tag|][k] == ' ';
      }
    } else {
      assert text[q..q + |Tag|] == node[q..q + |Tag|];
      assert text[q + |Tag|] == node[q + |Tag|];
    }
  }

  lemma TagAtInGeom(node: string, geom: string, q: nat)
    ensures TagAt(node + " " + geom, |node| + 1 + q) <==> TagAt(geom, q)
  {
    var text := node + " " + geom;
    var p := |node| + 1 + q;
    if q + |Tag| < |geom| {
      assert text[p..p + |Tag|] == geom[q..q + |Tag|];
      assert text[p + |Tag|] == geom[q + |Tag|];
    }
  }

  lemma {:induction false} DigitRunInNode(node: string, geom: string, q: nat)
    requires q <= |node|
    ensures DigitRunEnd(node + " " + geom, q) == DigitRunEnd(node, q)
    decreases |node| - q
  {
    var text := node + " " + geom;
    if q < |node| {
      assert text[q] == node[q];
      if IsDigit(node[q]) {
        DigitRunInNode(node, geom, q + 1);
      }
    } else {
      assert text[q] == ' ';
    }
  }

  lemma {:induction false} DigitRunInGeom(node: string, geom: string, q: nat)
    requires q <= |geom|
    ensures DigitRunEnd(node + " " + geom, |node| + 1 + q) == |node| + 1 + DigitRunEnd(geom, q)
    decreases |geom| - q
  {
    var text := node + " " + geom;
    if q < |geom| {
      assert text[|node| + 1 + q] == geom[q];
      if IsDigit(geom[q]) {
        DigitRunInGeom(node, geom, q + 1);
      }
    }
  }

  /** A piece of the node name is the same piece of the joined text. */
  lemma SliceInNode(node: string, geom: string, i: nat, j: nat)
    requires i <= j <= |node|
    ensures (node + " " + geom)[i..j] == node[i..j]
  {
  }

  /** A piece of the geometry name is found in the joined text, shifted by
      the node name and the space. */
  lemma SliceInGeom(node: string, geom: string, i: nat, j: nat)
    requires i <= j <= |geom|
    ensures (node + " " + geom)[|node| + 1 + i..|node| + 1 + j] == geom[i..j]
  {
    var text := node + " " + geom;
    forall k | 0 <= k < j - i
      ensures text[|node| + 1 + i..|node| + 1 + j][k] == geom[i..j][k]
    {
      assert text[|node| + 1 + i + k] == geom[i + k];
    }
  }

  /** A tag in the node name is the stem. */
  lemma StemFromNodeTag(node: string, geom: string, p: nat)
    requires FindTag(node, 0) == Some(p)
    ensures Stem(node, geom) == TagText(node, p)
  {
    var text := node + " " + geom;
    TagAtInNode(node, geom, p);
    forall q | 0 <= q < p
      ensures !TagAt(text, q)
    {
      TagAtInNode(node, geom, q);
    }
    FindTagLeftmost(text, p);
    DigitRunInNode(node, geom, p + |Tag|);
    SliceInNode(node, geom, p, DigitRunEnd(node, p + |Tag|));
  }

  /** No tag in the node name can be found in the joined text. */
  lemma NoTagInNode(node: string, geom: string)
    requires FindTag(node, 0).None?
    ensures forall q :: 0 <= q <= |node| ==> !TagAt(node + " " + geom, q)
  {
    var text := node + " " + geom;
    forall q | 0 <= q <= |node|
      ensures !TagAt(text, q)
    {
      if q < |node| {
        TagAtInNode(node, geom, q);
      } else if q + |Tag| < |text| {
        assert text[q..q + |Tag|][0] == ' ';
      }
    }
  }

  /** A tag of the geometry name reads the same in the joined text. */
  lemma TagTextInGeom(node: string, geom: string, p: nat)
    requires TagAt(geom, p)
    ensures TagAt(node + " " + geom, |node| + 1 + p)
    ensures TagText(node + " " + geom, |node| + 1 + p) == TagText(geom, p)
  {
    var e := DigitRunEnd(geom, p + |Tag|);
    TagAtInGeom(node, geom, p);
    DigitRunInGeom(node, geom, p + |Tag|);
    assert DigitRunEnd(node + " " + geom, |node| + 1 + p + |Tag|) == |node| + 1 + e;
    SliceInGeom(node, geom, p, e);
  }

  /** Without a tag in the node name, the geometry's first tag is the first
      tag of the joined text. */
  lemma FindTagInGeom(node: string, geom: string, p: nat)
    requires FindTag(node, 0).None? && FindTag(geom, 0) == Some(p)
    ensures FindTag(node + " " + geom, 0) == Some(|node| + 1 + p)
  {
    var text := node + " " + geom;
    NoTagInNode(node, geom);
    forall q | |node| < q < |node| + 1 + p
      ensures !TagAt(text, q)
    {
      var q' := q - |node| - 1;
      assert !TagAt(geom, q');
      TagAtInGeom(node, geom, q');
    }
    TagAtInGeom(node, geom, p);
    FindTagLeftmost(text, |node| + 1 + p);
  }

  /** Without a tag in the node name, a tag in the geometry name is the stem. */
  lemma StemFromGeomTag(node: string, geom: string, p: nat)
    requires FindTag(node, 0).None? && FindTag(geom, 0) == Some(p)
    ensures Stem(node, geom) == TagText(geom, p)
  {
    FindTagInGeom(node, geom, p);
    TagTextInGeom(node, geom, p);
  }

  /** Without any tag the stem is the sanitised name. */
  lemma StemWithoutTag(node: string, geom: string)
    requires FindTag(node, 0).None? && FindTag(geom, 0).None?
    ensures Stem(node, geom) == Sanitize(if node != [] then node else geom)
  {
    var text := node + " " + geom;
    NoTagInNode(node, geom);
    forall q | |node| < q
      ensures !TagAt(text, q)
    {
      TagAtInGeom(node, geom, q - |node| - 1);
    }
    assert FindTag(text, 0).None?;
  }

  /** Searching the joined text is searching the node name, then the
      geometry name. */
  lemma StemMatchesNameByName(node: string, geom: string)
    ensures Stem(node, geom) == StemNameByName(node, geom)
  {
    match FindTag(node, 0)
    case Some(p) => StemFromNodeTag(node, geom, p);
    case None =>
      match FindTag(geom, 0)
      case Some(p) => StemFromGeomTag(node, geom, p);
      case None => StemWithoutTag(node, geom);
  }

  /** Every stem is a usable file name: nonempty, of allowed characters only,
      and either a sanitised name or a whole tag: the fixed part in some
      letter case followed by all of its digits. */
  lemma StemShape(node: string, geom: string)
    ensures |Stem(node, geom)| > 0 && AllNameChars(Stem(node, geom))
    ensures Stem(node, geom) == Sanitize(if node != [] then node else geom)
            || (&& |Stem(node, geom)| > |Tag|
                && IsTagPrefix(Stem(node, geom)[..|Tag|])
                && (forall i :: |Tag| <= i < |Stem(node, geom)| ==> IsDigit(Stem(node, geom)[i])))
  {
    var text := node + " " + geom;
    match FindTag(text, 0)
    case Some(p) => TagTextShape(text, p);
    case None =>
  }
}

=== FILE: options.dfy ===
/** An optional value: Python's `None` or a value. */
module Options {
  datatype Option<T> = None | Some(value: T)
}

=== FILE: pipeline.dfy ===
/** The decisions of the clustering command between loading the meshes and
    writing the files: which target to aim for, which eps to cluster at, and
    which names to export under. */
module Pipeline {
  import opened Options
  import opened Centroids
  import opened Clustering
  import opened ThresholdSearch
  import opened ExpectedNames

  /** The target cluster count: the one given, else the number of expected
      names when there are any, else none. */
  function EffectiveTarget(targetArg: Option<int>, expected: seq<string>): Option<int>
  {
    if targetArg.Some? then targetArg
    else if |expected| > 0 then Some(|expected|)
    else None
  }

  /** The outcome of the command for given centroids, arguments and expected
      names. */
  datatype Outcome = Outcome(eps: real, clusters: seq<seq<nat>>, names: Option<seq<string>>, warn: bool)

  /** Picks eps (searching for one when only a target is known), clusters,
      and decides the export names and the mismatch warning. `listing` holds
      the stems of the expected-name files in the order the directory listing
      yields them; the expected names are that listing ordered by suffix key. */
  method ClusterForExport(cents: seq<Point>, epsArg: Option<real>, targetArg: Option<int>, listing: seq<string>)
    returns (out: Outcome)
    ensures out.clusters == Clusters(cents, out.eps)
    ensures epsArg.Some? ==> out.eps == epsArg.value
    ensures epsArg.None? && EffectiveTarget(targetArg, listing).None? ==> out.eps == 0.05
    ensures epsArg.None? && EffectiveTarget(targetArg, listing).Some? ==>
      var target := EffectiveTarget(targetArg, listing).value;
      exists b: nat :: FirstBest(cents, target, Trials(cents, target, 0.0, 0.5, 24), b)
                       && Trials(cents, target, 0.0, 0.5, 24)[b] == out.eps
    ensures out.names == NamesForExport(OrderExpected(listing), |out.clusters|)
    ensures out.warn == MismatchWarning(OrderExpected(listing), out.names)
  {
    var expected := OrderExpected(listing);
    var target := EffectiveTarget(targetArg, expected);
    var chosenEps: real;
    var clusters: seq<seq<nat>>;
    if epsArg.None? && target.Some? {
      chosenEps, clusters := PickEpsForTarget(cents, target.value, 0.0, 0.5, 24);
    } else {
      chosenEps := if epsArg.Some? then epsArg.value else 0.05;
      clusters := ClusterMeshes(cents, chosenEps);
    }
    var names := NamesForExport(expected, |clusters|);
    out := Outcome(chosenEps, clusters, names, MismatchWarning(expected, names));
  }
}

=== FILE: stable_sort.dfy ===
/** Sorting by an integer key, keeping elements with equal keys in their
    original order, as Python's `list.sort(key=...)` does. */
module StableSort {

  predicate SortedBy<T>(s: seq<T>, key: T -> int)
  {
    forall i, j :: 0 <= i < j < |s| ==> key(s[i]) <= key(s[j])
  }

  /** The elements of s whose key is k, in their order in s. */
  function WithKey<T>(s: seq<T>, key: T -> int, k: int): seq<T>
  {
    if s == [] then []
    else (if key(s[0]) == k then [s[0]] else []) + WithKey(s[1..], key, k)
  }

  /** Inserts x after every element whose key is not larger than x's. */
  function Insert<T>(x: T, s: seq<T>, key: T -> int): (r: seq<T>)
    ensures |r| == |s| + 1
  {
    if s == [] then [x]
    else if key(x) < key(s[0]) then [x] + s
    else [s[0]] + Insert(x, s[1..], key)
  }

  /** Insertion sort, each element inserted after those before it with an
      equal key. */
  function SortBy<T>(s: seq<T>, key: T -> int): (r: seq<T>)
    ensures |r| == |s|
  {
    if s == [] then []
    else Insert(s[|s| - 1], SortBy(s[..|s| - 1], key), key)
  }

  lemma {:induction false} InsertPermutes<T>(x: T, s: seq<T>, key: T -> int)
    ensures multiset(Insert(x, s, key)) == multiset(s) + multiset{x}
  {
    if s != [] && key(s[0]) <= key(x) {
      InsertPermutes(x, s[1..], key);
      assert s == [s[0]] + s[1..];
    }
  }

  /** Inserting x into the tail of a sorted s, when x belongs after the head,
      keeps every key at least the head's. */
  lemma InsertedAfterHead<T>(x: T, s: seq<T>, key: T -> int)
    requires SortedBy(s, key) && s != [] && key(s[0]) <= key(x)
    ensures forall i :: 0 <= i < |Insert(x, s[1..], key)| ==> key(s[0]) <= key(Insert(x, s[1..], key)[i])
  {
    var t := s[1..];
    var r' := Insert(x, t, key);
    InsertPermutes(x, t, key);
    forall i | 0 <= i < |r'|
      ensures key(s[0]) <= key(r'[i])
    {
      assert r'[i] in multiset(r');
      if r'[i] != x {
        assert r'[i] in multiset(t);
        var j :| 0 <= j < |t| && t[j] == r'[i];
        assert t[j] == s[j + 1];
      }
    }
  }

  /** Inserting into a sorted sequence keeps it sorted. */
  lemma {:induction false} InsertSorted<T>(x: T, s: seq<T>, key: T -> int)
    requires SortedBy(s, key)
    ensures SortedBy(Insert(x, s, key), key)
  {
    if s != [] && key(s[0]) <= key(x) {
      var r' := Insert(x, s[1..], key);
      InsertSorted(x, s[1..], key);
      InsertedAfterHead(x, s, key);
      var r := Insert(x, s, key);
      assert r == [s[0]] + r';
      forall i, j | 0 <= i < j < |r|
        ensures key(r[i]) <= key(r[j])
      {
        assert r[j] == r'[j - 1];
        if i > 0 {
          assert r[i] == r'[i - 1];
        }
      }
    }
  }

  lemma {:induction false} WithKeyAppend<T>(a: seq<T>, b: seq<T>, key: T -> int, k: int)
    ensures WithKey(a + b, key, k) == WithKey(a, key, k) + WithKey(b, key, k)
  {
    if a != [] {
      assert (a + b)[1..] == a[1..] + b;
      WithKeyAppend(a[1..], b, key, k);
    } else {
      assert a + b == b;
    }
  }

  /** In a sorted sequence that starts above k nothing has key k. */
  lemma {:induction false} WithKeyAbove<T>(s: seq<T>, key: T -> int, k: int)
    requires SortedBy(s, key) && (s == [] || k < key(s[0]))
    ensures WithKey(s, key, k) == []
  {
    if s != [] {
      if |s| > 1 {
        assert key(s[0]) <= key(s[1]);
      }
      WithKeyAbove(s[1..], key, k);
    }
  }

  /** Inserting x adds it after the elements that share its key. */
  lemma {:induction false} InsertWithKey<T>(x: T, s: seq<T>, key: T -> int, k: int)
    requires SortedBy(s, key)
    ensures WithKey(Insert(x, s, key), key, k) == WithKey(s, key, k) + (if key(x) == k then [x] else [])
  {
    if s == [] {
    } else if key(x) < key(s[0]) {
      if key(x) == k {
        WithKeyAbove(s, key, k);
      }
    } else {
      InsertWithKey(x, s[1..], key, k);
    }
  }

  /** The result is sorted by key. */
  lemma {:induction false} SortBySorted<T>(s: seq<T>, key: T -> int)
    ensures SortedBy(SortBy(s, key), key)
  {
    if s != [] {
      SortBySorted(s[..|s| - 1], key);
      InsertSorted(s[|s| - 1], SortBy(s[..|s| - 1], key), key);
    }
  }

  /** The result holds the same elements, as often. */
  lemma {:induction false} SortByPermutes<T>(s: seq<T>, key: T -> int)
    ensures multiset(SortBy(s, key)) == multiset(s)
  {
    if s != [] {
      SortByPermutes(s[..|s| - 1], key);
      InsertPermutes(s[|s| - 1], SortBy(s[..|s| - 1], key), key);
      assert s == s[..|s| - 1] + [s[|s| - 1]];
    }
  }

  /** The sort is stable: elements with equal keys keep their order. */
  lemma {:induction false} SortByStable<T>(s: seq<T>, key: T -> int, k: int)
    ensures WithKey(SortBy(s, key), key, k) == WithKey(s, key, k)
  {
    if s != [] {
      var init, last := s[..|s| - 1], s[|s| - 1];
      SortByStable(init, key, k);
      SortBySorted(init, key);
      InsertWithKey(last, SortBy(init, key), key, k);
      assert s == init + [last];
      WithKeyAppend(init, [last], key, k);
    }
  }
}

=== FILE: threshold_search.dfy ===
/** Choosing eps for a wanted number of clusters. The search first clusters
    at `lo`, then doubles `hi` (at most 10 times) until it gives no more than
    `target` clusters, then bisects `[lo, hi]` for a fixed number of steps,
    keeping the first eps whose cluster count is closest to `target`. */
module ThresholdSearch {
  import opened Centroids
  import opened Clustering

  /** The number of clusters at threshold eps. */
  ghost function Count(cents: seq<Point>, eps: real): nat
  {
    |Clusters(cents, eps)|
  }

  function Abs(x: int): nat
  {
    if x < 0 then -x else x
  }

  /** How far the cluster count at eps is from the target. */
  ghost function Gap(cents: seq<Point>, target: int, eps: real): nat
  {
    Abs(Count(cents, eps) - target)
  }

  /** h doubled t times. */
  function Doubled(h: real, t: nat): (r: real)
    ensures 0.0 <= h ==> h <= r
  {
    if t == 0 then h else 2.0 * Doubled(h, t - 1)
  }

  /** d halved k times. */
  function Halved(d: real, k: nat): (r: real)
    ensures 0.0 <= d ==> 0.0 <= r <= d
    decreases k
  {
    if k == 0 then d else Halved(d / 2.0, k - 1)
  }

  /** The number of doublings of hi the search performs, having done t:
      the first t' in t..10 at which hi doubled t' times gives no more than
      target clusters, or 10 when there is none. */
  ghost function ExpandSteps(cents: seq<Point>, target: int, hi: real, t: nat): (r: nat)
    requires t <= 10
    ensures t <= r <= 10
    ensures forall u :: t <= u < r ==> Count(cents, Doubled(hi, u)) > target
    ensures r < 10 ==> Count(cents, Doubled(hi, r)) <= target
    decreases 10 - t
  {
    if t < 10 && Count(cents, Doubled(hi, t)) > target then ExpandSteps(cents, target, hi, t + 1)
    else t
  }

  /** The upper end of the bisection. */
  ghost function ExpandedHi(cents: seq<Point>, target: int, hi: real): real
  {
    Doubled(hi, ExpandSteps(cents, target, hi, 0))
  }

  /** The midpoints a bisection of [left, right] evaluates, and the bracket it
      ends with. */
  datatype Bracket = Bracket(mids: seq<real>, left: real, right: real)

  /** `steps` rounds of bisection: a midpoint with more than target clusters
      becomes the new left end, any other midpoint the new right end. */
  ghost function Bisection(cents: seq<Point>, target: int, left: real, right: real, steps: nat): (b: Bracket)
    ensures |b.mids| == steps
    decreases steps
  {
    if steps == 0 then Bracket([], left, right)
    else
      var mid := (left + right) / 2.0;
      var rest := if Count(cents, mid) > target then Bisection(cents, target, mid, right, steps - 1)
                  else Bisection(cents, target, left, mid, steps - 1);
      Bracket([mid] + rest.mids, rest.left, rest.right)
  }

  /** Bisection stays inside its bracket. */
  lemma {:induction false} BisectionStaysInside(cents: seq<Point>, target: int, left: real, right: real, steps: nat)
    requires left <= right
    ensures var b := Bisection(cents, target, left, right, steps);
      && left <= b.left <= b.right <= right
      && (forall i :: 0 <= i < |b.mids| ==> left <= b.mids[i] <= right)
    decreases steps
  {
    if steps > 0 {
      var mid := (left + right) / 2.0;
      if Count(cents, mid) > target {
        BisectionStaysInside(cents, target, mid, right, steps - 1);
      } else {
        BisectionStaysInside(cents, target, left, mid, steps - 1);
      }
    }
  }

  /** Every round halves the bracket. */
  lemma {:induction false} BisectionHalves(cents: seq<Point>, target: int, left: real, right: real, steps: nat)
    ensures var b := Bisection(cents, target, left, right, steps);
      b.right - b.left == Halved(right - left, steps)
    decreases steps
  {
    if steps > 0 {
      var mid := (left + right) / 2.0;
      if Count(cents, mid) > target {
        BisectionHalves(cents, target, mid, right, steps - 1);
        assert right - mid == (right - left) / 2.0;
      } else {
        BisectionHalves(cents, target, left, mid, steps - 1);
        assert mid - left == (right - left) / 2.0;
      }
    }
  }

  /** Each end of the final bracket is either the initial end or a point on
      the same side of the target: more than target clusters on the left, no
      more than target on the right. */
  lemma {:induction false} BisectionKeepsBracket(cents: seq<Point>, target: int, left: real, right: real, steps: nat)
    ensures var b := Bisection(cents, target, left, right, steps);
      && (b.left == left || Count(cents, b.left) > target)
      && (b.right == right || Count(cents, b.right) <= target)
    decreases steps
  {
    if steps > 0 {
      var mid := (left + right) / 2.0;
      if Count(cents, mid) > target {
        BisectionKeepsBracket(cents, target, mid, right, steps - 1);
      } else {
        BisectionKeepsBracket(cents, target, left, mid, steps - 1);
      }
    }
  }

  /** Because the cluster count never grows with eps, a moved end of the final
      bracket separates the thresholds: every eps up to the left end gives more
      than target clusters, every eps from the right end on at most target. */
  lemma ThresholdWithinBracket(cents: seq<Point>, target: int, left: real, right: real, steps: nat)
    ensures var b := Bisection(cents, target, left, right, steps);
      && (b.left != left ==> forall e :: e <= b.left ==> Count(cents, e) > target)
      && (b.right != right ==> forall e :: b.right <= e ==> Count(cents, e) <= target)
  {
    var b := Bisection(cents, target, left, right, steps);
    BisectionKeepsBracket(cents, target, left, right, steps);
    forall e | e <= b.left
      ensures Count(cents, b.left) <= Count(cents, e)
    {
      ClusterCountMonotone(cents, e, b.left);
    }
    forall e | b.right <= e
      ensures Count(cents, e) <= Count(cents, b.right)
    {
      ClusterCountMonotone(cents, b.right, e);
    }
  }

  /** Every eps the search clusters at, in order: lo, then the midpoints. */
  ghost function Trials(cents: seq<Point>, target: int, lo: real, hi: real, steps: nat): seq<real>
  {
    [lo] + Bisection(cents, target, lo, ExpandedHi(cents, target, hi), steps).mids
  }

  /** trials[b] is closest to the target among all trials, and strictly closer
      than every earlier one: the first of the best. */
  ghost predicate FirstBest(cents: seq<Point>, target: int, trials: seq<real>, b: nat)
  {
    && b < |trials|
    && (forall k :: 0 <= k < |trials| ==> Gap(cents, target, trials[b]) <= Gap(cents, target, trials[k]))
    && (forall k :: 0 <= k < b ==> Gap(cents, target, trials[b]) < Gap(cents, target, trials[k]))
  }

  /** The best so far is replaced only by a strictly better trial. */
  lemma FirstBestExtend(cents: seq<Point>, target: int, trials: seq<real>, b: nat, e: real)
    requires FirstBest(cents, target, trials, b)
    ensures Gap(cents, target, e) < Gap(cents, target, trials[b]) ==> FirstBest(cents, target, trials + [e], |trials|)
    ensures Gap(cents, target, trials[b]) <= Gap(cents, target, e) ==> FirstBest(cents, target, trials + [e], b)
  {
    var t := trials + [e];
    assert forall k :: 0 <= k < |trials| ==> t[k] == trials[k];
  }

  /** At most one trial is the first of the best. */
  lemma FirstBestUnique(cents: seq<Point>, target: int, trials: seq<real>, b1: nat, b2: nat)
    requires FirstBest(cents, target, trials, b1) && FirstBest(cents, target, trials, b2)
    ensures b1 == b2
  {
    var g1, g2 := Gap(cents, target, trials[b1]), Gap(cents, target, trials[b2]);
    assert g1 == g2;
  }

  /** The chosen eps is never further from the target than lo. */
  lemma FirstBestNoWorseThanLo(cents: seq<Point>, target: int, trials: seq<real>, b: nat)
    requires FirstBest(cents, target, trials, b)
    ensures Gap(cents, target, trials[b]) <= Gap(cents, target, trials[0])
  {
  }

  /** With 0 <= lo <= hi every trial lies in [lo, cur_hi], the doubled hi. */
  lemma TrialsInsideSearchRange(cents: seq<Point>, target: int, lo: real, hi: real, steps: nat)
    requires 0.0 <= lo <= hi
    ensures var curHi := ExpandedHi(cents, target, hi);
      && hi <= curHi
      && |Trials(cents, target, lo, hi, steps)| == steps + 1
      && forall i :: 0 <= i < steps + 1 ==> lo <= Trials(cents, target, lo, hi, steps)[i] <= curHi
  {
    var curHi := ExpandedHi(cents, target, hi);
    BisectionStaysInside(cents, target, lo, curHi, steps);
  }

  /** Invariant of the bisection loop: the midpoints evaluated so far followed
      by a bisection of the current bracket make up the whole bisection. */
  ghost predicate BisectionSoFar(cents: seq<Point>, target: int, lo: real, curHi: real, steps: nat,
                                 k: nat, mids: seq<real>, left: real, right: real)
  {
    k <= steps &&
    var rest := Bisection(cents, target, left, right, steps - k);
    Bisection(cents, target, lo, curHi, steps) == Bracket(mids + rest.mids, rest.left, rest.right)
  }

  lemma BisectionSoFarStep(cents: seq<Point>, target: int, lo: real, curHi: real, steps: nat,
                           k: nat, mids: seq<real>, left: real, right: real)
    requires BisectionSoFar(cents, target, lo, curHi, steps, k, mids, left, right) && k < steps
    ensures var mid := (left + right) / 2.0;
      if Count(cents, mid) > target then BisectionSoFar(cents, target, lo, curHi, steps, k + 1, mids + [mid], mid, right)
      else BisectionSoFar(cents, target, lo, curHi, steps, k + 1, mids + [mid], left, mid)
  {
    var mid := (left + right) / 2.0;
    var rest := Bisection(cents, target, left, right, steps - k);
    var next := if Count(cents, mid) > target then Bisection(cents, target, mid, right, steps - k - 1)
                else Bisection(cents, target, left, mid, steps - k - 1);
    assert rest == Bracket([mid] + next.mids, next.left, next.right);
    assert mids + rest.mids == (mids + [mid]) + next.mids;
  }

  /** Doubles hi while it gives more than target clusters, at most 10 times. */
  method ExpandUpperBound(cents: seq<Point>, target: int, hi: real) returns (curHi: real)
    ensures curHi == ExpandedHi(cents, target, hi)
  {
    curHi := hi;
    var clustersHi := ClusterMeshes(cents, curHi);
    var tries := 0;
    while |clustersHi| > target && tries < 10
      invariant tries <= 10 && curHi == Doubled(hi, tries)
      invariant clustersHi == Clusters(cents, curHi)
      invariant ExpandSteps(cents, target, hi, tries) == ExpandSteps(cents, target, hi, 0)
      decreases 10 - tries
    {
      curHi := curHi * 2.0;
      clustersHi := ClusterMeshes(cents, curHi);
      tries := tries + 1;
    }
  }

  /** The whole state of the bisection loop after k rounds: the bisection so
      far, and the first best among lo and the midpoints so far. */
  ghost predicate SearchState(cents: seq<Point>, target: int, lo: real, curHi: real, steps: nat,
                              k: nat, mids: seq<real>, left: real, right: real, bestEps: real, bestIndex: nat)
  {
    && |mids| == k
    && BisectionSoFar(cents, target, lo, curHi, steps, k, mids, left, right)
    && FirstBest(cents, target, [lo] + mids, bestIndex)
    && ([lo] + mids)[bestIndex] == bestEps
  }

  lemma SearchStart(cents: seq<Point>, target: int, lo: real, curHi: real, steps: nat)
    ensures SearchState(cents, target, lo, curHi, steps, 0, [], lo, curHi, lo, 0)
  {
    assert [lo] + [] == [lo];
  }

  lemma SearchStep(cents: seq<Point>, target: int, lo: real, curHi: real, steps: nat,
                   k: nat, mids: seq<real>, left: real, right: real, bestEps: real, bestIndex: nat,
                   mid: real, better: bool, above: bool)
    requires SearchState(cents, target, lo, curHi, steps, k, mids, left, right, bestEps, bestIndex) && k < steps
    requires mid == (left + right) / 2.0
    requires better == (Gap(cents, target, mid) < Gap(cents, target, bestEps))
    requires above == (Count(cents, mid) > target)
    ensures SearchState(cents, target, lo, curHi, steps, k + 1, mids + [mid],
                        if above then mid else left, if above then right else mid,
                        if better then mid else bestEps, if better then k + 1 else bestIndex)
  {
    FirstBestExtend(cents, target, [lo] + mids, bestIndex, mid);
    BisectionSoFarStep(cents, target, lo, curHi, steps, k, mids, left, right);
    assert [lo] + (mids + [mid]) == ([lo] + mids) + [mid];
  }

  lemma SearchDone(cents: seq<Point>, target: int, lo: real, hi: real, steps: nat,
                   mids: seq<real>, left: real, right: real, bestEps: real, bestIndex: nat)
    requires SearchState(cents, target, lo, ExpandedHi(cents, target, hi), steps, steps, mids, left, right, bestEps, bestIndex)
    ensures exists b: nat :: FirstBest(cents, target, Trials(cents, target, lo, hi, steps), b)
                             && Trials(cents, target, lo, hi, steps)[b] == bestEps
  {
    assert mids + [] == mids;
    assert [lo] + mids == Trials(cents, target, lo, hi, steps);
  }

  /** The threshold search. Returns the first eps among lo and the bisection
      midpoints whose cluster count is closest to target, and its clusters. */
  method PickEpsForTarget(cents: seq<Point>, target: int, lo: real, hi: real, steps: nat)
    returns (bestEps: real, bestClusters: seq<seq<nat>>)
    ensures bestClusters == Clusters(cents, bestEps)
    ensures exists b: nat :: FirstBest(cents, target, Trials(cents, target, lo, hi, steps), b)
                             && Trials(cents, target, lo, hi, steps)[b] == bestEps
  {
    bestEps := lo;
    bestClusters := ClusterMeshes(cents, lo);
    var bestDiff := Abs(|bestClusters| - target);
    var curHi := ExpandUpperBound(cents, target, hi);
    var left, right := lo, curHi;
    ghost var mids: seq<real> := [];
    ghost var bestIndex: nat := 0;
    SearchStart(cents, target, lo, curHi, steps);
    for k := 0 to steps
      invariant SearchState(cents, target, lo, curHi, steps, k, mids, left, right, bestEps, bestIndex)
      invariant bestClusters == Clusters(cents, bestEps)
      invariant bestDiff == Gap(cents, target, bestEps)
    {
      var mid := (left + right) / 2.0;
      var clustersMid := ClusterMeshes(cents, mid);
      var diff := Abs(|clustersMid| - target);
      // Only a strictly smaller gap replaces the best so far; too many
      // clusters mean eps is too small, so the midpoint becomes the left end.
      var better := diff < bestDiff;
      var above := |clustersMid| > target;
      SearchStep(cents, target, lo, curHi, steps, k, mids, left, right, bestEps, bestIndex, mid, better, above);
      bestDiff := if better then diff else bestDiff;
      bestEps := if better then mid else bestEps;
      bestClusters := if better then clustersMid else bestClusters;
      bestIndex := if better then k + 1 else bestIndex;
      left, right := if above then mid else left, if above then right else mid;
      mids := mids + [mid];
    }
    SearchDone(cents, target, lo, hi, steps, mids, left, right, bestEps, bestIndex);
  }
}
